=== FILE: README.md ===
# Lock and Learn — a Dafny model of the device-lock protocol and the quiz flow

Lock and Learn lets an administrator lock a learner's computer until the learner
finishes a quiz. The web app writes **instructions** — "lock, showing quiz Q" or
"unlock" — into the shared `device_locks` table. A desktop agent polls the
table every ten seconds for its user's instructions. It actuates each one: it
holds or releases a display-sleep blocker, runs the platform's screen-lock
command, and raises or hides the quiz window. Then it marks the row completed.
Around this protocol sit the quiz screens:
- the admin dashboard, which assigns quizzes and sends lock and unlock instructions;
- the home page, which redirects a locked user to the quiz;
- the quiz creator, which edits, validates and saves quizzes;
- the quiz renderer, which is where the quiz is taken, scored and handed off as an unlock;
- the results list.

The project models all of this as pure functions over immutable data:

| module | file | models |
|---|---|---|
| `Wrappers` | wrappers.dfy | `Option`, `Result` |
| `Text` | text.dfy | JavaScript `trim`, `parseInt`, `toString`, `padStart(2, "0")` |
| `LockStore` | lock_store.dfy | the `device_locks` table: insert, complete, "newest row matching a filter" |
| `Agent` | agent.dfy | what both desktop agents share: device state, OS effects, the blocker and interval handles |
| `DeviceWrapper` | device_wrapper.dfy | the newer agent, `apps/device-wrapper/src/main.js` |
| `LegacyAgent` | legacy_agent.dfy | the older agent, `apps/quiz-app/main.js` |
| `LockReplay` | lock_replay.dfy | the stale-lock replay in the newer agent, and a corrected tick |
| `DeviceController` | device_controller.dfy | the shared library's `DeviceController` |
| `LockRoute` | lock_route.dfy | the `POST /api/device-lock` route |
| `UserQuizzes` | user_quizzes.dfy | the `user_quizzes` table, with its unique `(user_id, quiz_id)` pair |
| `AdminDashboard` | admin_dashboard.dfy | assign, lock-with-quiz, unlock |
| `HomePage` | home_page.dfy | the signed-in redirect to an active quiz |
| `QuizCreator` | quiz_creator.dfy | editing, step navigation, validation, save plan |
| `QuizResults` | quiz_results.dfy | `Math.round` percentage, the 70% pass mark, the results list |
| `QuizRenderer` | quiz_renderer.dfy | taking a quiz, the countdown, `m:ss` display, the completion hand-off |

Modelling choices:
- **Store effects.** Every store write the source makes is modelled. Supabase returns errors instead of throwing them, so a write whose error the source ignores gets a boolean flag saying whether it took effect. A query's error gets a `queryOk` flag.
- **Row ids.** A row's id is its position in the table.
- **Row order.** `order("created_at", { ascending: false })` breaks ties by taking the row inserted later as newer.
- **Time.** Timestamps are natural numbers supplied by the caller.
- **Operating-system effects.** Calls such as `powerSaveBlocker.start`, `exec` and `setInterval` are recorded in an effect log. The handles they return are fresh numbers.

## Model

| member | source | states |
|---|---|---|
| Text.BlankIffAllWhitespace | apps/quiz-app/apps/quiz-app/components/quiz-creator.tsx:106 | `!s.trim()` holds exactly when every character of `s` is whitespace |
| Text.DecimalRoundTrip | apps/quiz-app/apps/quiz-app/components/quiz-renderer.tsx:154 | the decimal rendering of `n` consists of digits whose value is `n` |
| Text.Pad2RoundTrip | apps/quiz-app/apps/quiz-app/components/quiz-renderer.tsx:154 | `padStart(2, "0")` of a value below 100 is two digits that read back as the value |
| Text.ParseIntOfDecimal | apps/quiz-app/apps/quiz-app/components/quiz-creator.tsx:174 | `parseInt` of the decimal rendering of `n` is `n` |
| LockStore.NullIfEmpty | apps/quiz-app/packages/shared-lib/src/index.ts:29 | `quizId \|\| null` keeps a non-empty quiz id and maps an absent or empty one to null |
| LockStore.Insert | apps/quiz-app/packages/shared-lib/src/index.ts:23-33 | an insert appends exactly one open row with the given user, lock flag and quiz, leaving earlier rows unchanged and ids well-formed |
| LockStore.Complete | apps/quiz-app/apps/device-wrapper/src/main.js:190 | the update marks completed every row with the id and changes no other row |
| LockStore.CompleteOnlyThatRow | apps/quiz-app/apps/device-wrapper/src/main.js:190 | with unique ids, acknowledging a row changes that row's status and nothing else |
| LockStore.Latest | apps/quiz-app/apps/device-wrapper/src/main.js:167-173 | `order desc limit 1` returns the newest matching row, and returns none exactly when no row matches |
| LockStore.NewestIsLatest | apps/quiz-app/apps/device-wrapper/src/main.js:172-173 | the newest matching row is unique: any row that is newest is the one returned |
| LockStore.InsertedIsLatest | apps/quiz-app/apps/device-wrapper/src/main.js:167-178 | a row inserted no earlier than every existing row is what every query it matches returns next |
| LockStore.InsertInvisible | apps/quiz-app/apps/quiz-app/app/page.tsx:31-39 | inserting a row a query does not match leaves that query's answer unchanged |
| LockStore.NewestOpenAgrees | apps/quiz-app/main.js:72-84 | when the user's newest row is open, it is also the user's newest open row |
| Agent.LockCommand | apps/quiz-app/apps/device-wrapper/src/main.js:213-223 | there is a lock command on Windows, macOS and Linux, and none on any other platform |
| Agent.PlatformLock | apps/quiz-app/apps/device-wrapper/src/main.js:213-223 | the platform branch issues one shell command on the three known platforms and nothing otherwise |
| Agent.AcquireBlocker | apps/quiz-app/apps/device-wrapper/src/main.js:209-211 | a blocker is held afterwards; an already-held blocker is kept with no effect; otherwise exactly one start is issued |
| Agent.ReleaseBlocker | apps/quiz-app/apps/device-wrapper/src/main.js:238-241 | no blocker is held afterwards; the held one, if any, is stopped; releasing when none is held does nothing |
| Agent.StartPolling | apps/quiz-app/apps/device-wrapper/src/main.js:156-163 | any installed interval is cleared before exactly one new interval is installed |
| Agent.ShowQuizAt | apps/quiz-app/apps/device-wrapper/src/main.js:250-263 | an open window is loaded with the URL, made always-on-top, fullscreen and visible; nothing else changes |
| Agent.AtMostOneHeld | apps/quiz-app/apps/device-wrapper/src/main.js:24-26 | when the effect log agrees with the device, at most one sleep blocker and at most one poll interval are live |
| Agent.ConsistentStep | apps/quiz-app/apps/device-wrapper/src/main.js:209-211 | a step that moves the device's handles as its effects do, handing out only fresh handles in order, keeps the log consistent, including that every handle was handed out once |
| Agent.NoBlockerStartedTwice | apps/quiz-app/apps/device-wrapper/src/main.js:209-211 | in a consistent log no two blocker starts share a handle, and the next handle has never been started |
| DeviceWrapper.QuizUrl | apps/quiz-app/apps/device-wrapper/src/main.js:253 | the development and production quiz URLs are both the dashboard URL followed by `/quiz/` and the id |
| DeviceWrapper.Startup | apps/quiz-app/apps/device-wrapper/src/main.js:116-126 | the agent starts unlocked, with a hidden window on the dashboard and the persisted user; it polls exactly when a user id was persisted |
| DeviceWrapper.SetUserId | apps/quiz-app/apps/device-wrapper/src/main.js:141-146 | the user is bound and polling is (re)started; the lock state and window are untouched; no blocker is acquired |
| DeviceWrapper.Lock | apps/quiz-app/apps/device-wrapper/src/main.js:204-231 | after locking, quiz mode is on and a blocker is held. A blocker is acquired only when none was held. One lock command is issued per known platform. The window is made always-on-top and visible |
| DeviceWrapper.AcquireThenLockCount | apps/quiz-app/apps/device-wrapper/src/main.js:209-222 | acquire-then-platform-lock starts exactly one blocker when none was held and none otherwise |
| DeviceWrapper.Unlock | apps/quiz-app/apps/device-wrapper/src/main.js:233-248 | after unlocking, quiz mode is off and no blocker is held, with no command and no acquisition. The window is hidden and not on top. Unlocking an unlocked device issues nothing |
| DeviceWrapper.ShowQuiz | apps/quiz-app/apps/device-wrapper/src/main.js:250-263 | the window shows the quiz page of the given id, on top, fullscreen and visible |
| DeviceWrapper.Actuate | apps/quiz-app/apps/device-wrapper/src/main.js:181-196 | consuming a row leaves quiz mode and the blocker equal to the row's lock flag. A lock row with a quiz navigates to that quiz. Any other row keeps the URL |
| DeviceWrapper.ActuateIdempotent | apps/quiz-app/apps/device-wrapper/src/main.js:181-196 | actuating the same row twice gives the state of actuating it once, and the second pass acquires no blocker |
| DeviceWrapper.Pending | apps/quiz-app/apps/device-wrapper/src/main.js:163-173 | the tick's row is the bound user's newest open instruction; there is none when no open row of the user exists |
| DeviceWrapper.PollTick | apps/quiz-app/apps/device-wrapper/src/main.js:163-201 | a failed query or an absent open row changes nothing. Otherwise the newest open row is actuated and acknowledged when the write succeeds. User and poller are untouched |
| DeviceWrapper.LockIdempotent | apps/quiz-app/apps/device-wrapper/src/main.js:204-231 | locking twice leaves the state of one lock and acquires no second blocker |
| DeviceWrapper.LockRepeatedly | apps/quiz-app/apps/device-wrapper/src/main.js:209-211 | any number of consecutive locks acquire at most one blocker, and keep an already-held one |
| DeviceWrapper.UnlockIdempotent | apps/quiz-app/apps/device-wrapper/src/main.js:233-248 | a second unlock changes nothing and issues no effect |
| DeviceWrapper.RedeliveryIdempotent | apps/quiz-app/apps/device-wrapper/src/main.js:181-196 | after a failed acknowledgement, the row is delivered again. The redelivery yields the same device, acquires no blocker and acknowledges as a first delivery would |
| DeviceWrapper.TickAcknowledgesOnlyConsumed | apps/quiz-app/apps/device-wrapper/src/main.js:190-195 | a successful tick completes the consumed row and leaves every other row, older open ones included, unchanged |
| DeviceWrapper.LockThenUnlockEndToEnd | apps/quiz-app/apps/device-wrapper/src/main.js:163-201 | a lock for quiz Q is consumed by the next tick: the device locks, shows Q and completes the row. A later unlock is consumed by the tick after that, which unlocks, releases the blocker and completes that row |
| DeviceWrapper.Run | apps/quiz-app/apps/device-wrapper/src/main.js:141-201 | any sequence of user bindings, ticks and inserts keeps the effect log consistent with the device and the table's ids well-formed |
| DeviceWrapper.NeverDoubleAcquired | apps/quiz-app/apps/device-wrapper/src/main.js:156-241 | from start-up, whatever happens, the live blockers are exactly the device's blocker, at most one blocker and one interval are live, and no blocker handle is started twice |
| LegacyAgent.Startup | apps/quiz-app/main.js:12-49 | the older agent starts with no user, no poller and no blocker, and a visible window on the app URL |
| LegacyAgent.SetUserId | apps/quiz-app/main.js:56-66 | the user is bound and polling is (re)started without touching blocker or window |
| LegacyAgent.Lock | apps/quiz-app/main.js:105-129 | a blocker is held afterwards and acquired only when none was held; one command is issued per known platform; the window is raised |
| LegacyAgent.Unlock | apps/quiz-app/main.js:131-142 | the blocker is released if held and always-on-top is dropped; the window stays visible |
| LegacyAgent.ShowQuiz | apps/quiz-app/main.js:144-155 | the window shows the quiz page, whose id renders as "null" when the row has no quiz |
| LegacyAgent.Newest | apps/quiz-app/main.js:72-77 | the tick reads the bound user's newest row of any status |
| LegacyAgent.PollTick | apps/quiz-app/main.js:68-103 | the newest row is acted on and acknowledged only when it is open. A completed newest row, a failed query or no row changes nothing |
| LegacyAgent.UnboundUntilSet | apps/quiz-app/main.js:14 | before `set-user-id`, every tick is a no-op |
| LegacyAgent.LockIdempotent | apps/quiz-app/main.js:105-109 | locking twice keeps the state of one lock and acquires no second blocker |
| LegacyAgent.IgnoresStaleOpenRows | apps/quiz-app/main.js:84-97 | an open row behind a completed newest row is never acted on: the tick leaves that row open and unchanged, the device unchanged and issues no effect |
| LegacyAgent.AgentsAgreeOnOpenNewest | apps/quiz-app/main.js:72-97 | when the newest row is open, both agents consume the same row and agree on the store, the blocker and the effects |
| LockReplay.StaleLockReplayed | apps/quiz-app/apps/device-wrapper/src/main.js:167-196 | as written: a lock followed by an unlock before any poll ends, after two successful ticks, with the device locked |
| LockReplay.LatestIntentTick | apps/quiz-app/main.js:72-97 | corrected tick: it acts on the newest row of any status, and only when that row is open, with the newer agent's actuation |
| LockReplay.LatestIntentSettles | apps/quiz-app/main.js:84-97 | corrected: once the newest row is acknowledged, further ticks do nothing until a new row arrives |
| LockReplay.LatestIntentOnLockThenUnlock | apps/quiz-app/main.js:72-97 | corrected: on the lock-then-unlock table, the device ends unlocked with no blocker |
| DeviceController.CreateLockInstruction | apps/quiz-app/packages/shared-lib/src/index.ts:23-37 | a store error is thrown as is. On success, one open row is appended, with `quizId \|\| null`, and that row is returned |
| DeviceController.FindDevice | apps/quiz-app/packages/shared-lib/src/index.ts:49 | finds the row holding the `(user_id, device_info)` conflict key, and finds none exactly when no row holds it |
| DeviceController.RegisterDevice | apps/quiz-app/packages/shared-lib/src/index.ts:39-57 | a known pair has its row refreshed in place. A new pair gets exactly one row appended after the unchanged table. A unique key stays unique, and errors are thrown |
| DeviceController.ReRegisterKeepsOneRow | apps/quiz-app/packages/shared-lib/src/index.ts:42-51 | registering the same pair twice leaves one row for it, carrying the later activity time |
| DeviceController.DevicesOf | apps/quiz-app/packages/shared-lib/src/index.ts:60 | the selection holds each of the user's rows as often as the table does, and no other row |
| DeviceController.GetUserDevices | apps/quiz-app/packages/shared-lib/src/index.ts:59-64 | on success, the result holds exactly the rows of that user; errors are thrown |
| DeviceController.DeviceIndex | apps/quiz-app/packages/shared-lib/src/index.ts:72 | finds a row with the id, and finds none exactly when no row has it |
| DeviceController.UpdateDeviceActivity | apps/quiz-app/packages/shared-lib/src/index.ts:66-78 | the row with the id gets the new activity time. An unknown id fails, as `.single()` returns no row. A store error is thrown |
| LockRoute.Post | apps/quiz-app/app/api/device-lock/route.ts:5-45 | a bad body or a failed insert answers 500. A caller who is neither that user nor an admin gets 401 and nothing is written. Otherwise exactly one open row is inserted, with 200 and the lock or unlock message |
| LockRoute.GrantedRequestIsPending | apps/quiz-app/app/api/device-lock/route.ts:23-40 | a granted request's row is what the user's agent consumes next |
| UserQuizzes.PairCount | apps/quiz-app/apps/quiz-app/components/admin-dashboard.tsx:52-57 | counts the rows of a pair; zero exactly when none exists |
| UserQuizzes.FindPair | apps/quiz-app/apps/quiz-app/components/admin-dashboard.tsx:52-57 | finds a row of the pair, and finds none exactly when none exists |
| UserQuizzes.ValidPairCount | apps/quiz-app/apps/quiz-app/components/quiz-renderer.tsx:129-131 | with the pair unique, a pair has at most one row, and has one exactly when it is found |
| UserQuizzes.Single | apps/quiz-app/apps/quiz-app/components/admin-dashboard.tsx:52-59 | `.single()` yields a row exactly when the pair has exactly one; in a valid table that row is the one found |
| UserQuizzes.Assign | apps/quiz-app/apps/quiz-app/components/admin-dashboard.tsx:70-74 | an insert for a new pair appends one open row; a duplicate pair is rejected; validity is kept and the pair then exists |
| UserQuizzes.Reopen | apps/quiz-app/apps/quiz-app/components/admin-dashboard.tsx:61-67 | the row with the id is reopened with a new assignment time, keeping its old result; other rows are unchanged; validity is kept |
| UserQuizzes.RecordCompletion | apps/quiz-app/apps/quiz-app/components/quiz-renderer.tsx:120-132 | the upsert overwrites the pair's row or appends one. In a valid table the pair's single row then holds the result. Rows of other pairs are unchanged |
| UserQuizzes.UpdateKeepsPair | apps/quiz-app/apps/quiz-app/components/quiz-renderer.tsx:120-132 | rewriting a row in place, keeping its id and pair, keeps the table valid and the row the pair's |
| UserQuizzes.AppendKeepsPair | apps/quiz-app/apps/quiz-app/components/quiz-renderer.tsx:120-132 | appending a row for an absent pair keeps the table valid and makes the new row the pair's |
| AdminDashboard.AssignQuizToUser | apps/quiz-app/apps/quiz-app/components/admin-dashboard.tsx:39-94 | without both selections nothing is written. Otherwise the selection is cleared and "assigned" is shown, whether or not the write took effect. Lock instructions are untouched. After a successful write the pair has exactly one row, and it is open. When the lookup finds the pair's row, that row is reset in place: only `is_completed` and `assigned_at` change, and its id, score and completion time are kept. Rows with other ids are unchanged. When the pair has no row, exactly one open row is appended. A duplicate insert is rejected and leaves the table as it was |
| AdminDashboard.ReopenedIsSingle | apps/quiz-app/apps/quiz-app/components/admin-dashboard.tsx:59-75 | in a valid table, reopening or inserting leaves the pair with exactly one open row |
| AdminDashboard.LockDeviceWithQuiz | apps/quiz-app/apps/quiz-app/components/admin-dashboard.tsx:96-149 | one open lock row naming the selected quiz is appended. An assignment is inserted only when the lookup finds none. Then exactly one open row is appended and the rest are kept. A failed insert, or a pair already found, leaves the assignments unchanged. Validity is kept |
| AdminDashboard.UnlockDevice | apps/quiz-app/apps/quiz-app/components/admin-dashboard.tsx:151-172 | one open unlock row with no quiz is appended. Assignments are untouched, and the dropdown selection is left as it was |
| AdminDashboard.LockReachesDevice | apps/quiz-app/apps/quiz-app/components/admin-dashboard.tsx:109-114 | the dashboard's lock row is the user's agent's next row; that tick locks the device and opens the selected quiz |
| AdminDashboard.UnlockOvertakesLock | apps/quiz-app/apps/quiz-app/components/admin-dashboard.tsx:154-158 | the dashboard's unlock row is consumed next and unlocks the device |
| HomePage.ActiveLock | apps/quiz-app/apps/quiz-app/app/page.tsx:31-39 | the page's row is the user's newest open lock row; there is none exactly when no such row exists |
| HomePage.ActiveQuiz | apps/quiz-app/apps/quiz-app/app/page.tsx:31-42 | the redirect target is the active lock's quiz, and is present exactly when that quiz exists |
| HomePage.Home | apps/quiz-app/apps/quiz-app/app/page.tsx:25-51 | a signed-out visitor, and only such a visitor, goes to `/login`. A user with an active quiz goes to `/quiz/<id>`. Anyone else sees the welcome view |
| HomePage.UnlockRowsIgnored | apps/quiz-app/apps/quiz-app/app/page.tsx:36 | an open unlock row, however new, never changes the page |
| HomePage.DashboardLockRedirects | apps/quiz-app/apps/quiz-app/app/page.tsx:41-44 | after the dashboard locks a user on an existing quiz, the home page redirects the user to it |
| QuizCreator.BlankQuestion | apps/quiz-app/apps/quiz-app/components/quiz-creator.tsx:24-35 | a new question has blank text and four blank answers, of which only the first is marked correct |
| QuizCreator.NewEditor | apps/quiz-app/apps/quiz-app/components/quiz-creator.tsx:21-36 | the editor starts with one four-answer question at step 0, the details tab, within both step bounds |
| QuizCreator.ChangeQuestion | apps/quiz-app/apps/quiz-app/components/quiz-creator.tsx:42-49 | only the named field of the named question changes |
| QuizCreator.ChangeAnswer | apps/quiz-app/apps/quiz-app/components/quiz-creator.tsx:51-55 | only the text of the named answer changes |
| QuizCreator.ChooseCorrect | apps/quiz-app/apps/quiz-app/components/quiz-creator.tsx:57-63 | in the named question, exactly the chosen position is marked correct; texts and other questions are unchanged |
| QuizCreator.CorrectCount | apps/quiz-app/apps/quiz-app/components/quiz-creator.tsx:57-63 | counts correct answers; zero exactly when none is marked |
| QuizCreator.ExactlyOneCorrect | apps/quiz-app/apps/quiz-app/components/quiz-creator.tsx:57-63 | after choosing an answer, it is the only correct answer of its question |
| QuizCreator.ChoosingNonBlankAnswer | apps/quiz-app/apps/quiz-app/components/quiz-creator.tsx:57-63 | choosing a non-blank answer satisfies the validator's "correct answer" check |
| QuizCreator.AddQuestion | apps/quiz-app/apps/quiz-app/components/quiz-creator.tsx:65-79 | one blank question is appended and the rest is unchanged |
| QuizCreator.SpliceStart | apps/quiz-app/apps/quiz-app/components/quiz-creator.tsx:84 | `splice` counts a negative index from the end, clamped at zero |
| QuizCreator.RemoveQuestion | apps/quiz-app/apps/quiz-app/components/quiz-creator.tsx:81-91 | the last question is never removed. Otherwise the spliced question is removed and a step past the end is pulled back. Shape and both step bounds are kept |
| QuizCreator.NextStep | apps/quiz-app/apps/quiz-app/components/quiz-creator.tsx:93-97 | the step advances by one up to the number of questions, then stays put. No rendered control calls `nextStep` |
| QuizCreator.PrevStep | apps/quiz-app/apps/quiz-app/components/quiz-creator.tsx:99-103 | the step goes back by one down to zero, then stays put. No rendered control calls `prevStep` |
| QuizCreator.NextStepsStopAtEnd | apps/quiz-app/apps/quiz-app/components/quiz-creator.tsx:93-97 | enough forward presses reach, and stop at, the last step |
| QuizCreator.CardIndex | apps/quiz-app/apps/quiz-app/components/quiz-creator.tsx:353-357 | a question card is on screen exactly from step 2, showing question step − 2, which is a real question whenever the step is within the rendered bound |
| QuizCreator.Press | apps/quiz-app/apps/quiz-app/components/quiz-creator.tsx:259-429 | each control that is on screen sets the step as its handler does, "Next Question" adds one, add and remove go through `addQuestion` and `removeQuestion`; a control not on screen changes nothing; shape and the step bound `0..\|questions\|+1` are kept |
| QuizCreator.PressAllKeepsRange | apps/quiz-app/apps/quiz-app/components/quiz-creator.tsx:259-429 | any sequence of presses keeps the editor's shape and title and keeps the step within `0..\|questions\|+1` |
| QuizCreator.NextQuestionsReachSave | apps/quiz-app/apps/quiz-app/components/quiz-creator.tsx:418-425 | from any card, enough "Next Question" presses reach step \|questions\|+1, the last card, where Save replaces "Next Question"; this step lies outside the `nextStep` bound |
| QuizCreator.JumpShowsPreviousCard | apps/quiz-app/apps/quiz-app/components/quiz-creator.tsx:330-339 | the grid button of question idx shows the card of question idx − 1, or stays on the list for the first question |
| QuizCreator.ValidAnswers | apps/quiz-app/apps/quiz-app/components/quiz-creator.tsx:146 | the filter keeps exactly the non-blank answers |
| QuizCreator.ValidAnswersCount | apps/quiz-app/apps/quiz-app/components/quiz-creator.tsx:146-147 | the filter keeps every non-blank answer as often as it occurs and drops every blank one, so `validAnswers.length` counts the non-blank answers |
| QuizCreator.ValidAnswersAppend | apps/quiz-app/apps/quiz-app/components/quiz-creator.tsx:146 | filtering a concatenation concatenates the filtered parts, so the kept answers stay in order |
| QuizCreator.FirstProblem | apps/quiz-app/apps/quiz-app/components/quiz-creator.tsx:118-155 | a question yields no problem exactly when it passes the three checks; a problem carries the question's index |
| QuizCreator.FindValidAnswer | apps/quiz-app/apps/quiz-app/components/quiz-creator.tsx:128-134 | the loop finds an answer exactly when some non-blank answer is marked correct |
| QuizCreator.Validate | apps/quiz-app/apps/quiz-app/components/quiz-creator.tsx:105-159 | it accepts exactly the quizzes with a title whose every question passes. A blank title is reported first. Otherwise the first failing question is reported with its first failing check, and the step moves to index + 1, within both step bounds |
| QuizCreator.NewEditorRejected | apps/quiz-app/apps/quiz-app/components/quiz-creator.tsx:106 | a fresh editor never validates: its title is blank |
| QuizCreator.TimeLimitSeconds | apps/quiz-app/apps/quiz-app/components/quiz-creator.tsx:174 | an empty time limit is null; a parsable one is minutes times 60; an unparsable one is NaN, stored as null |
| QuizCreator.MinutesToSeconds | apps/quiz-app/apps/quiz-app/components/quiz-creator.tsx:174 | typing the minutes `n` stores `n * 60` seconds |
| QuizCreator.LastCorrect | apps/quiz-app/apps/quiz-app/components/quiz-creator.tsx:216-224 | `correct_answer_id` ends on the last correct answer written, and is absent exactly when no answer is correct |
| QuizCreator.PlanQuestion | apps/quiz-app/apps/quiz-app/components/quiz-creator.tsx:182-199 | a question is written with its index as order, its text and explanation, and only its non-blank answers. Its `correct_answer_id` ends on the last of them marked correct |
| QuizCreator.Save | apps/quiz-app/apps/quiz-app/components/quiz-creator.tsx:161-226 | a save is planned exactly when validation passes. It writes the title, description, creator and time limit, then every question in order with its text and explanation. Each question has at least two non-blank answers. Its correct answer is the last written answer marked correct, and one always exists |
| QuizCreator.ValidatedHasCorrect | apps/quiz-app/apps/quiz-app/components/quiz-creator.tsx:128-146 | a question that passes validation ends with a non-blank correct answer |
| QuizResults.RoundedPercent | apps/quiz-app/apps/quiz-app/components/quiz-renderer.tsx:159 | the percentage is the integer nearest to 100 × score / total, halves up, and is at most 100 when score ≤ total |
| QuizResults.PassIff | apps/quiz-app/apps/quiz-app/components/quiz-renderer.tsx:159-160 | the rounded percentage reaches 70 exactly when 200 × score ≥ 139 × total |
| QuizResults.ResultPercent | apps/quiz-app/apps/quiz-app/components/quiz-results.tsx:67 | a missing or zero total shows 0%; otherwise the rounded percentage, with a missing score counted as 0 |
| QuizResults.CardPassIff | apps/quiz-app/apps/quiz-app/components/quiz-results.tsx:67-68 | a card passes exactly when its total is positive and 200 × score ≥ 139 × total |
| QuizResults.Completed | apps/quiz-app/apps/quiz-app/components/quiz-results.tsx:21-25 | the query keeps each of the user's completed rows as often as the table does, and nothing else |
| QuizResults.Place | apps/quiz-app/apps/quiz-app/components/quiz-results.tsx:26 | inserting a row into an ordered list keeps it ordered and adds exactly that row |
| QuizResults.SortShown | apps/quiz-app/apps/quiz-app/components/quiz-results.tsx:26 | the list is a permutation of the rows, ordered by completion time descending with missing times first |
| QuizResults.Results | apps/quiz-app/apps/quiz-app/components/quiz-results.tsx:18-68 | "no completed quizzes" is shown exactly when the query fails or the user has no completed row. Otherwise the cards are a permutation of those rows in display order, each with its percentage and verdict |
| QuizRenderer.Start | apps/quiz-app/apps/quiz-app/components/quiz-renderer.tsx:22-30 | taking starts at the first question with score 0, nothing submitted, not completed |
| QuizRenderer.StartInv | apps/quiz-app/apps/quiz-app/components/quiz-renderer.tsx:22-30 | the start state satisfies the invariant: the score counts the correct submissions |
| QuizRenderer.Select | apps/quiz-app/apps/quiz-app/components/quiz-renderer.tsx:61-65 | an answer can be selected only before submitting |
| QuizRenderer.Submit | apps/quiz-app/apps/quiz-app/components/quiz-renderer.tsx:67-103 | a submission without a selection, or a repeated one, does nothing. Otherwise it records the answer and the `user_answers` row, and adds one to the score exactly when the answer is correct |
| QuizRenderer.Next | apps/quiz-app/apps/quiz-app/components/quiz-renderer.tsx:105-115 | advance and clear the selection, or, on the last question, complete |
| QuizRenderer.ScoreBounded | apps/quiz-app/apps/quiz-app/components/quiz-renderer.tsx:78-80 | the score never exceeds the submissions, which never exceed the questions |
| QuizRenderer.Step | apps/quiz-app/apps/quiz-app/components/quiz-renderer.tsx:61-115 | every user action keeps the invariant |
| QuizRenderer.Play | apps/quiz-app/apps/quiz-app/components/quiz-renderer.tsx:61-115 | any sequence of actions keeps the invariant, so the score stays within the number of questions |
| QuizRenderer.Outcome | apps/quiz-app/apps/quiz-app/components/quiz-renderer.tsx:158-160 | the result card shows the rounded percentage, at most 100, and passes exactly when 200 × score ≥ 139 × questions |
| QuizRenderer.TimerTick | apps/quiz-app/apps/quiz-app/components/quiz-renderer.tsx:45-54 | the countdown expires exactly at zero or null, keeping 0; otherwise it decreases by one |
| QuizRenderer.Countdown | apps/quiz-app/apps/quiz-app/components/quiz-renderer.tsx:44-55 | after k ticks from n, n − k seconds remain |
| QuizRenderer.CountdownExpires | apps/quiz-app/apps/quiz-app/components/quiz-renderer.tsx:44-55 | a limit of n seconds runs n ticks without expiring and expires on the next |
| QuizRenderer.FormatTime | apps/quiz-app/apps/quiz-app/components/quiz-renderer.tsx:151-155 | the display has a colon before two final characters |
| QuizRenderer.FormatTimeRoundTrip | apps/quiz-app/apps/quiz-app/components/quiz-renderer.tsx:151-155 | the display reads back as minutes and two-digit seconds below 60 that add up to the time |
| QuizRenderer.CompleteQuiz | apps/quiz-app/apps/quiz-app/components/quiz-renderer.tsx:117-148 | the result is upserted for the pair. When a lock opened the quiz, that row is completed and one open unlock row is appended. Each write is independent and validity is kept |
| QuizRenderer.HandOffUnlocks | apps/quiz-app/apps/quiz-app/components/quiz-renderer.tsx:134-144 | after completion, the lock row is completed and the new unlock row is the agent's next row, whose tick unlocks the device |

## Left out

- Electron and the operating system are reduced to their effect on the model: window flags, blocker handles, interval handles and shell commands. Tray, auto-updater, dev tools and `set-supabase-config` are not modelled.
- Timers are not modelled as concurrent. Ticks are atomic, and overlapping async polls are not modelled, because the source has no serialisation to model.
- The desktop agent's persisted store (`electron-store`) is a `persisted` parameter of start-up.
- React rendering, toasts' wording and loading spinners are left out. Notices are a datatype.
- Floating point is left out: `Math.round(score / total * 100)` is modelled on the exact rational with halves rounding up, so values that round differently in binary floating point are not covered.
- Postgres orders rows with equal `created_at` in no fixed order; the model fixes that the row inserted later is newer.
- QuizCreator.Save: partial failure halfway through the inserts is not modelled, and row ids are not produced. The plan is what a fully successful save writes.
- QuizCreator.ChangeQuestion, QuizCreator.ChangeAnswer and QuizCreator.ChooseCorrect require the indices to be in range. The UI only passes indices of rendered questions, and out-of-range writes in JavaScript would create sparse entries that are not modelled.
- The creator's step numbering is inconsistent, and the model keeps it as written. The render shows question `currentStep - 2` from step 2 on. Validation sets the step to `i + 1`, and the question grid to `idx + 1`, so both land one card early (QuizCreator.JumpShowsPreviousCard). `nextStep` and `prevStep` are modelled (QuizCreator.NextStep, QuizCreator.PrevStep) but no rendered control calls them, so their bound `0..|questions|` is not what the rendered editor keeps. The rendered controls are QuizCreator.Press: they set the step directly and "Next Question" reaches step `|questions| + 1`, the last card, where the card's own Save button replaces "Next Question". The Save button in the card footer is shown on every step, so saving never depends on the step. Text, answer and correct-answer edits are the Change functions, not controls of Press. The Radix tab state is separate from the step and is not modelled.
- AdminDashboard.AssignQuizToUser, AdminDashboard.LockDeviceWithQuiz and AdminDashboard.UnlockDevice report success whether or not the write took effect. Supabase returns errors rather than throwing them, so the error toasts are unreachable and not modelled.
- LegacyAgent.PollTick: when the acknowledging update throws, the older agent skips `showQuizWindow`. This is not modelled. Supabase reports errors in its return value, so the write does not throw.
- QuizRenderer.Outcome requires at least one question. The renderer shows no question card for an empty quiz and cannot reach the result screen.
- QuizRenderer.TimerTick: the interval's completion callback captures the first render's `isCompleted` and `score`. A timed-out quiz is therefore recorded with score 0 and does not show the result card. This is not modelled: CompleteQuiz takes the score as a parameter.
- QuizRenderer.CompleteQuiz takes `deviceLockId` as an optional row id. The page that passes it (`app/quiz/[id]/page.tsx`) is not part of this model.
- DeviceController.RegisterDevice: the source writes `last_active` both inside `device_info` and as a column. The model keys on the `DeviceInfo` value it is given, and `lastActive` is part of that value. The desktop shell calls it with a fresh timestamp inside `device_info` every time (`apps/dashboard/components/electron-initializer.tsx:41-46`). So DeviceController.ReRegisterKeepsOneRow, which registers the same pair twice, never arises from that caller, and each of its calls adds a row.
- Unlocking does not clear fullscreen in either agent, although `showQuizWindow` sets it. The model keeps the fullscreen flag set, as the code does.
- LockRoute.Post: the body's fields are assumed to have their declared JSON types: a string `userId`, a boolean `shouldLock` and an optional string `quizId`. The route reads arbitrary JSON. A missing `userId` compares unequal to the caller's id, so a non-admin gets 401. A non-boolean `shouldLock`, such as the string "false", picks the lock message by truthiness while the database coerces or rejects the column value. Neither case is representable in the model. Only an unparsable body, answered with 500, is.
- Authentication (`getUser`, `getSession`) and the `quizzes` join are parameters: the caller, the session and the set of existing quiz ids.
- `isElectron`, `initializeElectron` and `getElectronInfo` in the shared library only detect the desktop shell and forward the user id. They are not modelled; `SetUserId` covers the agent side.

## Findings

| source | as written | input that shows it | evidently intended | confidence | as-written member | corrected member |
|---|---|---|---|---|---|---|
| apps/quiz-app/apps/device-wrapper/src/main.js:167-196 | each tick consumes the newest OPEN row, so an instruction overtaken before the device polled is still applied later, out of order | a lock for quiz "q" at time 1, then an unlock at time 2, both open before the first tick: tick 1 unlocks, tick 2 replays the lock and the device stays locked | the most recent instruction wins, as the older agent (`apps/quiz-app/main.js:72-97`) ensures by reading the newest row of any status | medium; not executed | LockReplay.StaleLockReplayed | LockReplay.LatestIntentTick |

=== FILE: admin_dashboard.dfy ===
/**
 * The admin dashboard's store operations: assign a quiz to a user, lock a
 * user's devices on a quiz, and unlock them.
 *
 * The dashboard ignores the error each store call returns, so every write is
 * given a flag saying whether it took effect, and the dashboard reports
 * success either way.
 */
module AdminDashboard {
  import opened Wrappers
  import opened LockStore
  import opened UserQuizzes
  import Agent
  import DeviceWrapper

  /** The two dropdowns; an empty string is no selection, as `null` is. */
  datatype Selection = Selection(quiz: Option<QuizId>, user: Option<UserId>)

  datatype Stores = Stores(locks: Table, assignments: Assignments)

  /** The toast shown to the admin. */
  datatype Notice = SelectionRequired | QuizAssigned | LockSent | UnlockSent

  datatype Outcome = Outcome(stores: Stores, selection: Selection, notice: Notice)

  predicate Selected(sel: Selection) {
    Truthy(sel.quiz) && Truthy(sel.user)
  }

  const Cleared: Selection := Selection(None, None)

  /**
   * `assignQuizToUser`: reopen the pair's assignment when the lookup finds
   * one, insert one otherwise.
   */
  function AssignQuizToUser(sel: Selection, st: Stores, now: nat, writeOk: bool): (o: Outcome)
    ensures !Selected(sel) ==> o == Outcome(st, sel, SelectionRequired)
    ensures Selected(sel) ==> o.notice == QuizAssigned && o.selection == Cleared
    ensures o.stores.locks == st.locks
    ensures !writeOk ==> o.stores == st
    ensures Valid(st.assignments) ==> Valid(o.stores.assignments)
    ensures Valid(st.assignments) && Selected(sel) && writeOk ==>
      var a := o.stores.assignments;
      && Single(a, sel.user.value, sel.quiz.value).Some?
      && !a[Single(a, sel.user.value, sel.quiz.value).value].isCompleted
      && PairCount(a, sel.user.value, sel.quiz.value) == 1
    ensures Selected(sel) && writeOk && Single(st.assignments, sel.user.value, sel.quiz.value).Some? ==>
      var rows := st.assignments;
      var k := Single(rows, sel.user.value, sel.quiz.value).value;
      && |o.stores.assignments| == |rows|
      && forall i :: 0 <= i < |rows| ==>
           o.stores.assignments[i] ==
             (if rows[i].id == rows[k].id then rows[i].(isCompleted := false, assignedAt := now) else rows[i])
    ensures Valid(st.assignments) && Selected(sel) && writeOk && Single(st.assignments, sel.user.value, sel.quiz.value).Some? ==>
      var k := Single(st.assignments, sel.user.value, sel.quiz.value).value;
      && o.stores.assignments[k] == st.assignments[k].(isCompleted := false, assignedAt := now)
      && forall i :: 0 <= i < |st.assignments| && i != k ==> o.stores.assignments[i] == st.assignments[i]
    ensures Selected(sel) && writeOk && FindPair(st.assignments, sel.user.value, sel.quiz.value).None? ==>
      o.stores.assignments ==
        st.assignments + [Assignment(|st.assignments|, sel.user.value, sel.quiz.value, false, now, None, None, None)]
    ensures Selected(sel) && writeOk ==>
      var found := FindPair(st.assignments, sel.user.value, sel.quiz.value).Some?;
      Single(st.assignments, sel.user.value, sel.quiz.value).None? && found ==> o.stores.assignments == st.assignments
  {
    if !Selected(sel) then Outcome(st, sel, SelectionRequired)
    else
      var u := sel.user.value;
      var q := sel.quiz.value;
      var rows := st.assignments;
      var rows' :=
        if !writeOk then rows
        else match Single(rows, u, q)
          case Some(k) => Reopen(rows, rows[k].id, now)
          case None => Assign(rows, u, q, now);
      ReopenedIsSingle(rows, u, q, now);
      Outcome(st.(assignments := rows'), Cleared, QuizAssigned)
  }

  /** After a write for the pair in a valid table, the pair's one row is open. */
  lemma ReopenedIsSingle(rows: Assignments, u: UserId, q: QuizId, now: nat)
    ensures Valid(rows) ==>
      var rows' := match Single(rows, u, q)
        case Some(k) => Reopen(rows, rows[k].id, now)
        case None => Assign(rows, u, q, now);
      && Single(rows', u, q).Some?
      && !rows'[Single(rows', u, q).value].isCompleted
      && PairCount(rows', u, q) == 1
  {
    if !Valid(rows) { return; }
    match Single(rows, u, q)
    case Some(k) =>
      var rows' := Reopen(rows, rows[k].id, now);
      assert IsPair(rows'[k], u, q);
      ValidPairCount(rows', u, q);
      forall i | 0 <= i < |rows'| && i != k
        ensures !IsPair(rows'[i], u, q)
      {
        if i < k {
          assert !IsPair(rows[k], rows[i].userId, rows[i].quizId);
        } else {
          assert !IsPair(rows[i], rows[k].userId, rows[k].quizId);
        }
      }
    case None =>
      var rows' := Assign(rows, u, q, now);
      ValidPairCount(rows', u, q);
      assert FindPair(rows', u, q) == Some(|rows|);
  }

  /**
   * `lockDeviceWithQuiz`: one open lock instruction naming the selected quiz,
   * then an assignment only when the lookup finds none.
   */
  function LockDeviceWithQuiz(sel: Selection, st: Stores, now: nat, lockOk: bool, assignOk: bool): (o: Outcome)
    ensures !Selected(sel) ==> o == Outcome(st, sel, SelectionRequired)
    ensures Selected(sel) ==> o.notice == LockSent && o.selection == Cleared
    ensures !lockOk ==> o.stores.locks == st.locks
    ensures Selected(sel) && lockOk ==> o.stores.locks == Insert(st.locks, sel.user.value, true, sel.quiz, now)
    ensures Selected(sel) && Single(st.assignments, sel.user.value, sel.quiz.value).Some? ==>
      o.stores.assignments == st.assignments
    ensures Valid(st.assignments) ==> Valid(o.stores.assignments)
    ensures Valid(st.assignments) && Selected(sel) && assignOk ==>
      FindPair(o.stores.assignments, sel.user.value, sel.quiz.value).Some?
    ensures Selected(sel) && Single(st.assignments, sel.user.value, sel.quiz.value).None? ==>
      o.stores.assignments ==
        (if assignOk then Assign(st.assignments, sel.user.value, sel.quiz.value, now) else st.assignments)
    ensures Selected(sel) && assignOk && FindPair(st.assignments, sel.user.value, sel.quiz.value).None? ==>
      o.stores.assignments ==
        st.assignments + [Assignment(|st.assignments|, sel.user.value, sel.quiz.value, false, now, None, None, None)]
    ensures !assignOk ==> o.stores.assignments == st.assignments
  {
    if !Selected(sel) then Outcome(st, sel, SelectionRequired)
    else
      var u := sel.user.value;
      var q := sel.quiz.value;
      var locks := if lockOk then Insert(st.locks, u, true, sel.quiz, now) else st.locks;
      var rows := st.assignments;
      var rows' := if Single(rows, u, q).None? && assignOk then Assign(rows, u, q, now) else rows;
      Outcome(Stores(locks, rows'), Cleared, LockSent)
  }

  /**
   * `unlockDevice(userId)`: one open unlock instruction with no quiz. It
   * needs no selection and leaves the dropdowns as they were.
   */
  function UnlockDevice(userId: UserId, sel: Selection, st: Stores, now: nat, writeOk: bool): (o: Outcome)
    ensures o.stores.assignments == st.assignments
    ensures o.notice == UnlockSent && o.selection == sel
    ensures !writeOk ==> o.stores.locks == st.locks
    ensures writeOk ==>
      && |o.stores.locks| == |st.locks| + 1 && o.stores.locks[..|st.locks|] == st.locks
      && o.stores.locks[|st.locks|] == Instruction(|st.locks|, userId, false, None, false, now)
  {
    var locks := if writeOk then Insert(st.locks, userId, false, None, now) else st.locks;
    Outcome(st.(locks := locks), sel, UnlockSent)
  }

  /**
   * A lock sent from the dashboard reaches the user's device: when no row is
   * dated after `now`, the newer agent's next tick consumes it, locks the
   * device and opens the selected quiz.
   */
  lemma LockReachesDevice(sel: Selection, st: Stores, now: nat, assignOk: bool, d: Agent.Device, ackOk: bool)
    requires Selected(sel)
    requires forall j :: 0 <= j < |st.locks| ==> st.locks[j].createdAt <= now
    requires Agent.BoundUser(d) == sel.user && d.window.Some?
    ensures
      var locks := LockDeviceWithQuiz(sel, st, now, true, assignOk).stores.locks;
      var t := DeviceWrapper.PollTick(locks, d, true, ackOk);
      && DeviceWrapper.Pending(locks, d) == Some(|st.locks|)
      && t.device.isQuizMode && t.device.blocker.Some?
      && t.device.window.value.url == DeviceWrapper.QuizUrl(d.dev, sel.quiz.value)
  {
    InsertedIsLatest(st.locks, sel.user.value, true, sel.quiz, now, Query(sel.user.value, true, false));
  }

  /** An unlock sent after a lock overtakes it: the device's next tick unlocks. */
  lemma UnlockOvertakesLock(userId: UserId, sel: Selection, st: Stores, now: nat, d: Agent.Device, ackOk: bool)
    requires forall j :: 0 <= j < |st.locks| ==> st.locks[j].createdAt <= now
    requires Agent.BoundUser(d) == Some(userId)
    ensures
      var locks := UnlockDevice(userId, sel, st, now, true).stores.locks;
      var t := DeviceWrapper.PollTick(locks, d, true, ackOk);
      && !t.device.isQuizMode && t.device.blocker.None?
  {
    InsertedIsLatest(st.locks, userId, false, None, now, Query(userId, true, false));
  }
}

=== FILE: agent.dfy ===
/**
 * What the two desktop agents share: the in-process device state, the
 * operating-system effects they issue, and the bookkeeping that shows the
 * sleep blocker and the poll interval are never held twice.
 *
 * Electron objects are abstracted: the power-save blocker and `setInterval`
 * hand out fresh numeric handles (`nextHandle`), the main window is a record
 * of flags (absent once closed), and shell commands are `Exec` effects.
 */
module Agent {
  import opened Wrappers
  import opened LockStore

  datatype Platform = Win32 | Darwin | Linux | OtherPlatform(name: string)

  const WindowsLockCommand: string := "rundll32.exe user32.dll,LockWorkStation"
  const MacLockCommand: string :=
    "/System/Library/CoreServices/Menu\\ Extras/User.menu/Contents/Resources/CGSession -suspend"
  const LinuxLockCommand: string :=
    "dbus-send --type=method_call --dest=org.gnome.ScreenSaver /org/gnome/ScreenSaver org.gnome.ScreenSaver.Lock"

  /** The operating-system effects an agent issues. */
  datatype Effect =
    | StartBlocker(handle: nat)   // powerSaveBlocker.start("prevent-display-sleep")
    | StopBlocker(handle: nat)    // powerSaveBlocker.stop(handle)
    | Exec(command: string)       // child_process.exec(command)
    | SetInterval(handle: nat)    // setInterval(poll, 10000)
    | ClearInterval(handle: nat)  // clearInterval(handle)

  /** The flags of the main window that the lock protocol touches. */
  datatype Window = Window(url: string, alwaysOnTop: bool, visible: bool, fullscreen: bool)

  datatype Device = Device(
    platform: Platform,
    dev: bool,                 // NODE_ENV === "development"
    userId: Option<UserId>,
    isQuizMode: bool,
    blocker: Option<nat>,      // powerSaveBlockerId
    window: Option<Window>,    // mainWindow, None once closed
    poller: Option<nat>,       // checkInterval
    nextHandle: nat)

  /** The result of an actuation step: the new device state and the effects issued. */
  datatype Actuation = Actuation(device: Device, effects: seq<Effect>)

  /** The result of one poll tick: the store, the device and the effects. */
  datatype Tick = Tick(rows: Table, device: Device, effects: seq<Effect>)

  /** JavaScript truthiness of the bound user id: `if (!userId) return`. */
  function BoundUser(d: Device): Option<UserId> {
    if Truthy(d.userId) then d.userId else None
  }

  /** The shell command that locks the screen on each platform. */
  function LockCommand(p: Platform): (r: Option<string>)
    ensures r.Some? <==> !p.OtherPlatform?
  {
    match p
    case Win32 => Some(WindowsLockCommand)
    case Darwin => Some(MacLockCommand)
    case Linux => Some(LinuxLockCommand)
    case OtherPlatform(_) => None
  }

  /** The effects of the platform branch of `lockDevice`. */
  function PlatformLock(p: Platform): (es: seq<Effect>)
    ensures |es| == ExecCount(es)
    ensures ExecCount(es) == (if p.OtherPlatform? then 0 else 1)
  {
    match LockCommand(p)
    case Some(c) => [Exec(c)]
    case None => []
  }

  /** The number of shell commands in an effect sequence. */
  function ExecCount(es: seq<Effect>): nat {
    if |es| == 0 then 0 else ExecCount(es[..|es| - 1]) + (if es[|es| - 1].Exec? then 1 else 0)
  }

  lemma {:induction false} ExecCountAppend(a: seq<Effect>, b: seq<Effect>)
    ensures ExecCount(a + b) == ExecCount(a) + ExecCount(b)
    decreases |b|
  {
    if |b| == 0 {
      assert a + b == a;
    } else {
      assert (a + b)[..|a + b| - 1] == a + b[..|b| - 1];
      ExecCountAppend(a, b[..|b| - 1]);
    }
  }

  /** The number of sleep-blocker acquisitions in an effect sequence. */
  function StartCount(es: seq<Effect>): nat {
    if |es| == 0 then 0 else StartCount(es[..|es| - 1]) + (if es[|es| - 1].StartBlocker? then 1 else 0)
  }

  lemma {:induction false} StartCountAppend(a: seq<Effect>, b: seq<Effect>)
    ensures StartCount(a + b) == StartCount(a) + StartCount(b)
    decreases |b|
  {
    if |b| == 0 {
      assert a + b == a;
    } else {
      assert (a + b)[..|a + b| - 1] == a + b[..|b| - 1];
      StartCountAppend(a, b[..|b| - 1]);
    }
  }

  /** Acquiring nothing is the same as counting no acquisition. */
  lemma {:induction false} NoAcquireCount(es: seq<Effect>)
    ensures NoAcquire(es) <==> StartCount(es) == 0
    decreases |es|
  {
    if |es| > 0 {
      NoAcquireCount(es[..|es| - 1]);
      assert forall i :: 0 <= i < |es| - 1 ==> es[..|es| - 1][i] == es[i];
    }
  }

  /** True when an effect sequence acquires no sleep blocker. */
  predicate NoAcquire(es: seq<Effect>) {
    forall i :: 0 <= i < |es| ==> !es[i].StartBlocker?
  }

  /** `if (powerSaveBlockerId === null) powerSaveBlockerId = powerSaveBlocker.start(...)`. */
  function AcquireBlocker(d: Device): (a: Actuation)
    ensures Faithful(d, a)
    ensures a.device.blocker.Some?
    ensures d.blocker.Some? ==> a.device == d && a.effects == []
    ensures d.blocker.None? ==> a.effects == [StartBlocker(a.device.blocker.value)]
  {
    if d.blocker.None? then
      Actuation(d.(blocker := Some(d.nextHandle), nextHandle := d.nextHandle + 1), [StartBlocker(d.nextHandle)])
    else Actuation(d, [])
  }

  /** `if (powerSaveBlockerId !== null) { powerSaveBlocker.stop(id); powerSaveBlockerId = null }`. */
  function ReleaseBlocker(d: Device): (a: Actuation)
    ensures Faithful(d, a)
    ensures a.device.blocker.None?
    ensures d.blocker.None? ==> a.device == d && a.effects == []
    ensures d.blocker.Some? ==> a.effects == [StopBlocker(d.blocker.value)]
    ensures NoAcquire(a.effects)
  {
    if d.blocker.Some? then Actuation(d.(blocker := None), [StopBlocker(d.blocker.value)])
    else Actuation(d, [])
  }

  /** `startCheckingLockStatus`: clear any installed interval, then install a new one. */
  function StartPolling(d: Device): (a: Actuation)
    ensures Faithful(d, a)
    ensures a.device.poller.Some?
    ensures a.effects == (if d.poller.Some? then [ClearInterval(d.poller.value)] else []) + [SetInterval(a.device.poller.value)]
    ensures NoAcquire(a.effects)
  {
    var h := d.nextHandle;
    var cleared := if d.poller.Some? then [ClearInterval(d.poller.value)] else [];
    var es := cleared + [SetInterval(h)];
    assert es[|es| - 1] == SetInterval(h);
    assert ApplyTimers(OptionSet(d.poller), es) == {h} by {
      if d.poller.Some? {
        assert es == [ClearInterval(d.poller.value), SetInterval(h)];
        assert es[1..] == [SetInterval(h)];
        assert OptionSet(d.poller) - {d.poller.value} == {};
        assert ApplyTimers(OptionSet(d.poller), es) == ApplyTimers({}, es[1..]);
        assert es[1..][1..] == [];
        assert ApplyTimers({}, es[1..]) == ApplyTimers({h}, []);
      } else {
        assert es == [SetInterval(h)];
        assert ApplyTimers({}, es) == ApplyTimers({h}, es[1..]);
      }
    }
    assert ApplyBlockers(OptionSet(d.blocker), es) == OptionSet(d.blocker) by {
      if d.poller.Some? {
        assert es == [ClearInterval(d.poller.value), SetInterval(h)];
        assert ApplyBlockers(OptionSet(d.blocker), es) == ApplyBlockers(OptionSet(d.blocker), es[1..]);
      }
    }
    Actuation(d.(poller := Some(h), nextHandle := h + 1), es)
  }

  /** `mainWindow.loadURL(url)` followed by always-on-top, fullscreen, show and focus. */
  function ShowQuizAt(d: Device, url: string): (r: Device)
    ensures r.window.Some? <==> d.window.Some?
    ensures r.window.Some? ==> r.window.value == Window(url, true, true, true)
    ensures r.(window := d.window) == d
  {
    if d.window.Some? then d.(window := Some(Window(url, true, true, true))) else d
  }

  // ---------------------------------------------------------------------
  // Handle bookkeeping over the whole effect log

  function OptionSet(o: Option<nat>): set<nat> {
    if o.Some? then {o.value} else {}
  }

  /** The blocker handles held after applying `es` to the handles in `held`. */
  function ApplyBlockers(held: set<nat>, es: seq<Effect>): set<nat>
    decreases |es|
  {
    if |es| == 0 then held
    else
      var next := match es[0]
        case StartBlocker(h) => held + {h}
        case StopBlocker(h) => held - {h}
        case _ => held;
      ApplyBlockers(next, es[1..])
  }

  /** The interval handles installed after applying `es` to those in `live`. */
  function ApplyTimers(live: set<nat>, es: seq<Effect>): set<nat>
    decreases |es|
  {
    if |es| == 0 then live
    else
      var next := match es[0]
        case SetInterval(h) => live + {h}
        case ClearInterval(h) => live - {h}
        case _ => live;
      ApplyTimers(next, es[1..])
  }

  lemma {:induction false} ApplyAppend(held: set<nat>, live: set<nat>, a: seq<Effect>, b: seq<Effect>)
    ensures ApplyBlockers(held, a + b) == ApplyBlockers(ApplyBlockers(held, a), b)
    ensures ApplyTimers(live, a + b) == ApplyTimers(ApplyTimers(live, a), b)
    decreases |a|
  {
    if |a| == 0 {
      assert a + b == b;
    } else {
      assert (a + b)[0] == a[0];
      assert (a + b)[1..] == a[1..] + b;
      var e := a[0];
      var held' := match e case StartBlocker(h) => held + {h} case StopBlocker(h) => held - {h} case _ => held;
      var live' := match e case SetInterval(h) => live + {h} case ClearInterval(h) => live - {h} case _ => live;
      ApplyAppend(held', live', a[1..], b);
    }
  }

  /** True for the effects that hand out a new handle. */
  predicate Starts(e: Effect) {
    e.StartBlocker? || e.SetInterval?
  }

  /** Every handle handed out in `es` lies in `[lo, hi)`. */
  predicate StartsWithin(es: seq<Effect>, lo: nat, hi: nat) {
    forall i :: 0 <= i < |es| && Starts(es[i]) ==> lo <= es[i].handle < hi
  }

  /** Handles are handed out in increasing order, so none is handed out twice. */
  predicate StartsIncreasing(es: seq<Effect>) {
    forall i, j :: 0 <= i < j < |es| && Starts(es[i]) && Starts(es[j]) ==> es[i].handle < es[j].handle
  }

  /**
   * The device state agrees with the effect log: the blocker handles still
   * held are exactly the device's blocker, and the intervals still installed
   * are exactly its poller. Every handle in the log was handed out once and
   * lies below `nextHandle`. Without that, a second start of a held handle
   * would leave the held set unchanged and go unnoticed.
   */
  predicate Consistent(d: Device, log: seq<Effect>) {
    && ApplyBlockers({}, log) == OptionSet(d.blocker)
    && ApplyTimers({}, log) == OptionSet(d.poller)
    && StartsWithin(log, 0, d.nextHandle)
    && StartsIncreasing(log)
  }

  /**
   * An actuation step whose effects take the device's own blocker and poller
   * to the new ones, handing out only fresh handles in order, keeps a
   * consistent log consistent.
   */
  predicate Faithful(d: Device, a: Actuation) {
    && ApplyBlockers(OptionSet(d.blocker), a.effects) == OptionSet(a.device.blocker)
    && ApplyTimers(OptionSet(d.poller), a.effects) == OptionSet(a.device.poller)
    && d.nextHandle <= a.device.nextHandle
    && StartsWithin(a.effects, d.nextHandle, a.device.nextHandle)
    && StartsIncreasing(a.effects)
  }

  /** Shell commands neither acquire nor release handles. */
  lemma {:induction false} ApplyExecs(held: set<nat>, live: set<nat>, es: seq<Effect>)
    requires forall i :: 0 <= i < |es| ==> es[i].Exec?
    ensures ApplyBlockers(held, es) == held && ApplyTimers(live, es) == live
    decreases |es|
  {
    if |es| > 0 {
      ApplyExecs(held, live, es[1..]);
    }
  }

  /** A faithful step stays faithful when flags other than the handles change. */
  lemma FaithfulReflag(d: Device, a: Actuation, r: Device)
    requires Faithful(d, a)
    requires r.blocker == a.device.blocker && r.poller == a.device.poller && r.nextHandle == a.device.nextHandle
    ensures Faithful(d, Actuation(r, a.effects))
  {
  }

  /** Following a faithful step by shell commands only is still faithful. */
  lemma FaithfulThenExecs(d: Device, a: Actuation, es: seq<Effect>)
    requires Faithful(d, a)
    requires forall i :: 0 <= i < |es| ==> es[i].Exec?
    ensures Faithful(d, Actuation(a.device, a.effects + es))
  {
    ApplyAppend(OptionSet(d.blocker), OptionSet(d.poller), a.effects, es);
    ApplyExecs(OptionSet(a.device.blocker), OptionSet(a.device.poller), es);
    var all := a.effects + es;
    assert forall i :: |a.effects| <= i < |all| ==> all[i] == es[i - |a.effects|];
    assert forall i :: 0 <= i < |a.effects| ==> all[i] == a.effects[i];
  }

  lemma ConsistentStep(d: Device, log: seq<Effect>, a: Actuation)
    requires Faithful(d, a)
    ensures Consistent(d, log) ==> Consistent(a.device, log + a.effects)
  {
    ApplyAppend({}, {}, log, a.effects);
    if Consistent(d, log) {
      var es := log + a.effects;
      forall i | 0 <= i < |es| && Starts(es[i])
        ensures es[i].handle < a.device.nextHandle
      {
        if i >= |log| {
          assert es[i] == a.effects[i - |log|];
        }
      }
      forall i, j | 0 <= i < j < |es| && Starts(es[i]) && Starts(es[j])
        ensures es[i].handle < es[j].handle
      {
        if j < |log| {
          assert es[i] == log[i] && es[j] == log[j];
        } else if i < |log| {
          assert es[i] == log[i] && es[j] == a.effects[j - |log|];
        } else {
          assert es[i] == a.effects[i - |log|] && es[j] == a.effects[j - |log|];
        }
      }
    }
  }

  /** Under a consistent log no sleep-blocker handle is started twice. */
  lemma NoBlockerStartedTwice(d: Device, log: seq<Effect>)
    requires Consistent(d, log)
    ensures forall i, j :: 0 <= i < j < |log| && log[i].StartBlocker? && log[j].StartBlocker? ==>
      log[i].handle != log[j].handle
    ensures forall i :: 0 <= i < |log| && log[i].StartBlocker? ==> log[i] != StartBlocker(d.nextHandle)
  {
    assert forall i :: 0 <= i < |log| && log[i].StartBlocker? ==> Starts(log[i]);
  }

  /**
   * Under a consistent log, at most one sleep blocker and at most one poll
   * interval are live. This is immediate from `Consistent`, since an
   * `OptionSet` has at most one element; the work lies in showing that every
   * step keeps the log consistent (`ConsistentStep`, `Run`, `NeverDoubleAcquired`).
   */
  lemma AtMostOneHeld(d: Device, log: seq<Effect>)
    requires Consistent(d, log)
    ensures |ApplyBlockers({}, log)| <= 1
    ensures |ApplyTimers({}, log)| <= 1
  {
  }
}

=== FILE: device_controller.dfy ===
/**
 * `DeviceController` from the shared library: the instruction producer used
 * by other packages, and the `user_devices` registry.
 *
 * Every store call may report an error (`fail`); the controller rethrows
 * it, modelled as a `Failure` result that carries the same error.
 */
module DeviceController {
  import opened Wrappers
  import opened LockStore

  datatype StoreError =
    | Reported(message: string)   // the error object returned by the store
    | NoRowReturned               // `.single()` on an empty result

  /** The `DeviceLockInstruction` argument. */
  datatype LockRequest = LockRequest(userId: UserId, shouldLock: bool, quizId: Option<QuizId>)

  /** The table after an insert and the row `.select().single()` hands back. */
  datatype Created = Created(rows: Table, row: Instruction)

  /** `createLockInstruction`. */
  function CreateLockInstruction(rows: Table, req: LockRequest, now: nat, fail: Option<StoreError>): (r: Result<Created, StoreError>)
    ensures fail.Some? <==> r.Failure?
    ensures fail.Some? ==> r.error == fail.value
    ensures r.Success? ==>
      && |r.value.rows| == |rows| + 1 && r.value.rows[..|rows|] == rows
      && r.value.row == r.value.rows[|rows|]
      && r.value.row.userId == req.userId
      && r.value.row.shouldLock == req.shouldLock
      && !r.value.row.isCompleted
      && (r.value.row.quizId.Some? <==> Truthy(req.quizId))
      && (Truthy(req.quizId) ==> r.value.row.quizId == req.quizId)
    ensures r.Success? && WellFormed(rows) ==> WellFormed(r.value.rows)
  {
    if fail.Some? then Failure(fail.value)
    else
      var rows' := Insert(rows, req.userId, req.shouldLock, NullIfEmpty(req.quizId), now);
      Success(Created(rows', rows'[|rows|]))
  }

  // ---------------------------------------------------------------------
  // user_devices

  /** The `DeviceInfo` object, stored as a JSON column and compared as a whole. */
  datatype DeviceInfo = DeviceInfo(platform: string, userAgent: string, appVersion: Option<string>, lastActive: string)

  datatype DeviceRow = DeviceRow(id: nat, userId: UserId, info: DeviceInfo, lastActive: nat)

  /** The upsert conflict key `(user_id, device_info)` is unique and ids are positions. */
  predicate DevicesWellFormed(devs: seq<DeviceRow>) {
    && (forall i :: 0 <= i < |devs| ==> devs[i].id == i)
    && (forall i, j :: 0 <= i < j < |devs| ==> devs[i].userId != devs[j].userId || devs[i].info != devs[j].info)
  }

  /** The row holding the conflict key, if any. */
  function FindDevice(devs: seq<DeviceRow>, userId: UserId, info: DeviceInfo): (k: Option<nat>)
    ensures k.Some? ==> k.value < |devs| && devs[k.value].userId == userId && devs[k.value].info == info
    ensures k.None? ==> forall i :: 0 <= i < |devs| ==> devs[i].userId != userId || devs[i].info != info
    decreases |devs|
  {
    if |devs| == 0 then None
    else if devs[|devs| - 1].userId == userId && devs[|devs| - 1].info == info then Some(|devs| - 1)
    else FindDevice(devs[..|devs| - 1], userId, info)
  }

  datatype Registered = Registered(devices: seq<DeviceRow>, row: DeviceRow)

  /**
   * `registerDevice`: upsert on `(user_id, device_info)`. Registering a known
   * pair refreshes its `last_active`; a new pair is appended.
   */
  function RegisterDevice(devs: seq<DeviceRow>, userId: UserId, info: DeviceInfo, now: nat, fail: Option<StoreError>): (r: Result<Registered, StoreError>)
    ensures fail.Some? <==> r.Failure?
    ensures fail.Some? ==> r.error == fail.value
    ensures r.Success? ==>
      && r.value.row.userId == userId && r.value.row.info == info && r.value.row.lastActive == now
      && r.value.row in r.value.devices
      && |r.value.devices| == |devs| + (if FindDevice(devs, userId, info).Some? then 0 else 1)
    ensures r.Success? && FindDevice(devs, userId, info).Some? ==>
      var k := FindDevice(devs, userId, info).value;
      r.value.devices == devs[k := devs[k].(lastActive := now)]
    ensures r.Success? && FindDevice(devs, userId, info).None? ==>
      r.value.devices == devs + [DeviceRow(|devs|, userId, info, now)]
    ensures r.Success? && DevicesWellFormed(devs) ==> DevicesWellFormed(r.value.devices)
  {
    if fail.Some? then Failure(fail.value)
    else
      match FindDevice(devs, userId, info)
      case Some(k) =>
        var row := devs[k].(lastActive := now);
        assert devs[k := row][k] == row;
        Success(Registered(devs[k := row], row))
      case None =>
        var row := DeviceRow(|devs|, userId, info, now);
        Success(Registered(devs + [row], row))
  }

  /** Registering the same pair twice leaves one row for it, whose activity is the later time. */
  lemma ReRegisterKeepsOneRow(devs: seq<DeviceRow>, userId: UserId, info: DeviceInfo, t1: nat, t2: nat)
    requires DevicesWellFormed(devs)
    ensures
      var r1 := RegisterDevice(devs, userId, info, t1, None).value.devices;
      var r2 := RegisterDevice(r1, userId, info, t2, None).value.devices;
      && |r2| == |r1|
      && DevicesWellFormed(r2)
      && (forall i :: 0 <= i < |r2| && r2[i].userId == userId && r2[i].info == info ==> r2[i].lastActive == t2)
  {
    var r1 := RegisterDevice(devs, userId, info, t1, None).value.devices;
    assert FindDevice(r1, userId, info).Some?;
  }

  /** The rows of one user, in table order. */
  function DevicesOf(devs: seq<DeviceRow>, userId: UserId): (r: seq<DeviceRow>)
    ensures forall x :: multiset(r)[x] == (if x.userId == userId then multiset(devs)[x] else 0)
    decreases |devs|
  {
    if |devs| == 0 then []
    else
      var init := devs[..|devs| - 1];
      var last := devs[|devs| - 1];
      assert devs == init + [last];
      if last.userId == userId then DevicesOf(init, userId) + [last] else DevicesOf(init, userId)
  }

  /** `getUserDevices`. */
  function GetUserDevices(devs: seq<DeviceRow>, userId: UserId, fail: Option<StoreError>): (r: Result<seq<DeviceRow>, StoreError>)
    ensures fail.Some? <==> r.Failure?
    ensures fail.Some? ==> r.error == fail.value
    ensures r.Success? ==> forall x :: x in r.value <==> x in devs && x.userId == userId
  {
    if fail.Some? then Failure(fail.value)
    else
      var rows := DevicesOf(devs, userId);
      assert forall x :: x in rows <==> multiset(rows)[x] > 0;
      Success(rows)
  }

  /** The position of the row with the given id, if any. */
  function DeviceIndex(devs: seq<DeviceRow>, deviceId: nat): (k: Option<nat>)
    ensures k.Some? ==> k.value < |devs| && devs[k.value].id == deviceId
    ensures k.None? ==> forall i :: 0 <= i < |devs| ==> devs[i].id != deviceId
    decreases |devs|
  {
    if |devs| == 0 then None
    else if devs[|devs| - 1].id == deviceId then Some(|devs| - 1)
    else DeviceIndex(devs[..|devs| - 1], deviceId)
  }

  datatype Updated = Updated(devices: seq<DeviceRow>, row: DeviceRow)

  /**
   * `updateDeviceActivity`: refresh `last_active` of the row with the id.
   * `.single()` turns "no such row" into an error.
   */
  function UpdateDeviceActivity(devs: seq<DeviceRow>, deviceId: nat, now: nat, fail: Option<StoreError>): (r: Result<Updated, StoreError>)
    ensures fail.Some? ==> r == Failure(fail.value)
    ensures fail.None? && (forall i :: 0 <= i < |devs| ==> devs[i].id != deviceId) ==> r == Failure(NoRowReturned)
    ensures r.Success? ==>
      && |r.value.devices| == |devs|
      && (forall i :: 0 <= i < |devs| && devs[i].id != deviceId ==> r.value.devices[i] == devs[i])
      && (forall i :: 0 <= i < |devs| && devs[i].id == deviceId ==> r.value.devices[i] == devs[i].(lastActive := now))
      && r.value.row.id == deviceId && r.value.row.lastActive == now
    ensures fail.None? && (exists i :: 0 <= i < |devs| && devs[i].id == deviceId) ==> r.Success?
  {
    if fail.Some? then Failure(fail.value)
    else if DeviceIndex(devs, deviceId).None? then Failure(NoRowReturned)
    else
      var k := DeviceIndex(devs, deviceId).value;
      var devs' := seq(|devs|, i requires 0 <= i < |devs| =>
        if devs[i].id == deviceId then devs[i].(lastActive := now) else devs[i]);
      Success(Updated(devs', devs'[k]))
  }
}

=== FILE: device_wrapper.dfy ===
/**
 * The desktop agent in `apps/device-wrapper/src/main.js`: it remembers the
 * user id across restarts, polls the newest OPEN instruction of that user
 * every ten seconds, actuates it and acknowledges it.
 */
module DeviceWrapper {
  import opened Wrappers
  import opened LockStore
  import opened Agent

  const DevUrl: string := "http://localhost:3000"
  const ProdDashboardUrl: string := "https://your-lock-and-learn-app.vercel.app"

  /** `dashboardUrl`. */
  function DashboardUrl(dev: bool): string {
    if dev then DevUrl else ProdDashboardUrl
  }

  /** The quiz page; in development the literal localhost form is the same string. */
  function QuizUrl(dev: bool, quizId: QuizId): (url: string)
    ensures url == DashboardUrl(dev) + "/quiz/" + quizId
  {
    if dev then "http://localhost:3000/quiz/" + quizId else ProdDashboardUrl + "/quiz/" + quizId
  }

  /**
   * Process start: the window is created hidden on the dashboard, and polling
   * starts only when a user id was persisted by an earlier run.
   */
  function Startup(platform: Platform, dev: bool, persisted: Option<UserId>): (a: Actuation)
    ensures a.device.userId == persisted
    ensures !a.device.isQuizMode && a.device.blocker.None?
    ensures a.device.window == Some(Window(DashboardUrl(dev), false, false, false))
    ensures a.device.poller.Some? <==> Truthy(persisted)
    ensures Consistent(a.device, a.effects)
  {
    var d := Device(platform, dev, persisted, false, None, Some(Window(DashboardUrl(dev), false, false, false)), None, 0);
    if Truthy(persisted) then StartPolling(d) else Actuation(d, [])
  }

  /** The `set-user-id` handler: bind the user and (re)start polling. */
  function SetUserId(d: Device, id: UserId): (a: Actuation)
    ensures a.device.userId == Some(id)
    ensures a.device.poller.Some?
    ensures a.device.isQuizMode == d.isQuizMode && a.device.blocker == d.blocker && a.device.window == d.window
    ensures Faithful(d, a) && NoAcquire(a.effects)
  {
    StartPolling(d.(userId := Some(id)))
  }

  /** `lockDevice`. */
  function Lock(d: Device): (a: Actuation)
    ensures a.device.isQuizMode && a.device.blocker.Some?
    ensures d.blocker.Some? ==> a.device.blocker == d.blocker
    ensures NoAcquire(a.effects) <==> d.blocker.Some?
    ensures StartCount(a.effects) == (if d.blocker.None? then 1 else 0)
    ensures ExecCount(a.effects) == (if d.platform.OtherPlatform? then 0 else 1)
    ensures a.device.window.Some? <==> d.window.Some?
    ensures a.device.window.Some? ==>
      a.device.window.value == d.window.value.(alwaysOnTop := true, visible := true)
    ensures a.device.userId == d.userId && a.device.poller == d.poller
    ensures a.device.platform == d.platform && a.device.dev == d.dev
    ensures Faithful(d, a)
  {
    var b := AcquireBlocker(d);
    AcquireThenLockCount(d);
    var w := if d.window.Some? then Some(d.window.value.(alwaysOnTop := true, visible := true)) else None;
    ExecCountAppend(b.effects, PlatformLock(d.platform));
    AcquireThenLockFaithful(d, b.device.(isQuizMode := true, window := w));
    Actuation(b.device.(isQuizMode := true, window := w), b.effects + PlatformLock(d.platform))
  }

  lemma AcquireThenLockFaithful(d: Device, r: Device)
    requires r.blocker == AcquireBlocker(d).device.blocker && r.poller == AcquireBlocker(d).device.poller
    requires r.nextHandle == AcquireBlocker(d).device.nextHandle
    ensures Faithful(d, Actuation(r, AcquireBlocker(d).effects + PlatformLock(d.platform)))
  {
    var b := AcquireBlocker(d);
    FaithfulReflag(d, b, r);
    FaithfulThenExecs(d, Actuation(r, b.effects), PlatformLock(d.platform));
  }

  lemma AcquireThenLockCount(d: Device)
    ensures StartCount(AcquireBlocker(d).effects + PlatformLock(d.platform)) == (if d.blocker.None? then 1 else 0)
  {
    var b := AcquireBlocker(d);
    StartCountAppend(b.effects, PlatformLock(d.platform));
    NoAcquireCount(PlatformLock(d.platform));
    if d.blocker.None? {
      assert b.effects[..0] == [];
    }
  }

  /** `unlockDevice`: release the blocker if held, drop always-on-top and hide. */
  function Unlock(d: Device): (a: Actuation)
    ensures !a.device.isQuizMode && a.device.blocker.None?
    ensures NoAcquire(a.effects) && ExecCount(a.effects) == 0
    ensures d.blocker.None? ==> a.effects == []
    ensures a.device.window.Some? <==> d.window.Some?
    ensures a.device.window.Some? ==>
      a.device.window.value == d.window.value.(alwaysOnTop := false, visible := false)
    ensures a.device.userId == d.userId && a.device.poller == d.poller
    ensures a.device.platform == d.platform && a.device.dev == d.dev
    ensures Faithful(d, a)
  {
    var b := ReleaseBlocker(d);
    var w := if d.window.Some? then Some(d.window.value.(alwaysOnTop := false, visible := false)) else None;
    Actuation(b.device.(isQuizMode := false, window := w), b.effects)
  }

  /** `showQuizWindow(quizId)`. */
  function ShowQuiz(d: Device, quizId: QuizId): (r: Device)
    ensures r.window.Some? <==> d.window.Some?
    ensures r.window.Some? ==> r.window.value == Window(DashboardUrl(d.dev) + "/quiz/" + quizId, true, true, true)
    ensures r.(window := d.window) == d
  {
    ShowQuizAt(d, QuizUrl(d.dev, quizId))
  }

  /** What consuming an instruction row does to the device. */
  function Actuate(d: Device, row: Instruction): (a: Actuation)
    ensures a.device.isQuizMode == row.shouldLock && a.device.blocker.Some? == row.shouldLock
    ensures a.device.window.Some? <==> d.window.Some?
    ensures row.shouldLock && Truthy(row.quizId) && d.window.Some? ==>
      a.device.window.value.url == DashboardUrl(d.dev) + "/quiz/" + row.quizId.value
    ensures !(row.shouldLock && Truthy(row.quizId)) && d.window.Some? ==>
      a.device.window.value.url == d.window.value.url
    ensures a.device.userId == d.userId && a.device.poller == d.poller
    ensures a.device.platform == d.platform && a.device.dev == d.dev
    ensures d.blocker.Some? ==> NoAcquire(a.effects)
    ensures Faithful(d, a)
  {
    if row.shouldLock then
      var a := Lock(d);
      Actuation(if Truthy(row.quizId) then ShowQuiz(a.device, row.quizId.value) else a.device, a.effects)
    else Unlock(d)
  }

  /** Actuating the same row twice leaves the state of actuating it once, with no second blocker. */
  lemma ActuateIdempotent(d: Device, row: Instruction)
    ensures Actuate(Actuate(d, row).device, row).device == Actuate(d, row).device
    ensures NoAcquire(Actuate(Actuate(d, row).device, row).effects)
  {
    if row.shouldLock {
      var once := Actuate(d, row).device;
      assert Lock(once).device == once;
    }
  }

  /** The row a tick would consume: the bound user's newest open instruction. */
  function Pending(rows: Table, d: Device): (k: Option<nat>)
    ensures k.Some? ==> BoundUser(d).Some? && IsNewest(rows, Query(BoundUser(d).value, true, false), k.value)
    ensures k.None? && BoundUser(d).Some? ==>
      forall j :: 0 <= j < |rows| ==> !Matches(rows[j], Query(BoundUser(d).value, true, false))
  {
    match BoundUser(d)
    case None => None
    case Some(u) => Latest(rows, Query(u, true, false))
  }

  /**
   * One run of the interval callback. `queryOk` is false when the select
   * reports an error (thrown and caught: nothing happens); `ackOk` is false
   * when the acknowledging update does not take effect.
   */
  function PollTick(rows: Table, d: Device, queryOk: bool, ackOk: bool): (t: Tick)
    ensures t.device.window.Some? <==> d.window.Some?
    ensures !queryOk || Pending(rows, d).None? ==> t == Tick(rows, d, [])
    ensures queryOk && Pending(rows, d).Some? ==>
      var row := rows[Pending(rows, d).value];
      && t.rows == (if ackOk then Complete(rows, row.id) else rows)
      && t.device.isQuizMode == row.shouldLock
      && t.device.blocker.Some? == row.shouldLock
      && (row.shouldLock && Truthy(row.quizId) && d.window.Some? ==>
            t.device.window.value.url == DashboardUrl(d.dev) + "/quiz/" + row.quizId.value)
      && (!(row.shouldLock && Truthy(row.quizId)) && d.window.Some? ==>
            t.device.window.value.url == d.window.value.url)
    ensures t.device.userId == d.userId && t.device.poller == d.poller
    ensures t.device.platform == d.platform && t.device.dev == d.dev
    ensures d.blocker.Some? ==> NoAcquire(t.effects)
    ensures Faithful(d, Actuation(t.device, t.effects))
  {
    var pending := Pending(rows, d);
    if !queryOk || pending.None? then Tick(rows, d, [])
    else
      var row := rows[pending.value];
      var a := Actuate(d, row);
      Tick(if ackOk then Complete(rows, row.id) else rows, a.device, a.effects)
  }

  // ---------------------------------------------------------------------
  // Properties of the tick

  /** Locking twice leaves the state of one lock and does not acquire a second blocker. */
  lemma LockIdempotent(d: Device)
    ensures Lock(Lock(d).device).device == Lock(d).device
    ensures NoAcquire(Lock(Lock(d).device).effects)
  {
  }

  /** `lockDevice` called `n` times in a row. */
  function LockRepeatedly(d: Device, n: nat): (a: Actuation)
    ensures n > 0 ==> a.device.blocker.Some? && a.device.isQuizMode
    ensures d.blocker.Some? ==> a.device.blocker == d.blocker
    ensures StartCount(a.effects) == (if n > 0 && d.blocker.None? then 1 else 0)
    decreases n
  {
    if n == 0 then Actuation(d, [])
    else
      var first := Lock(d);
      var rest := LockRepeatedly(first.device, n - 1);
      NoAcquireCount(first.effects);
      StartCountAppend(first.effects, rest.effects);
      Actuation(rest.device, first.effects + rest.effects)
  }

  /** Unlocking twice is the same as unlocking once, and the second unlock issues nothing. */
  lemma UnlockIdempotent(d: Device)
    ensures Unlock(Unlock(d).device) == Actuation(Unlock(d).device, [])
  {
  }

  /**
   * A failed acknowledgement leaves the row open; delivering it again
   * yields the same device state, acquires no blocker, and acknowledges
   * exactly as a first delivery would.
   */
  lemma RedeliveryIdempotent(rows: Table, d: Device, ackOk: bool)
    ensures PollTick(rows, d, true, false).rows == rows
    ensures
      var t1 := PollTick(rows, d, true, false);
      var t2 := PollTick(t1.rows, t1.device, true, ackOk);
      && t2.device == t1.device
      && NoAcquire(t2.effects)
      && t2.rows == PollTick(rows, d, true, ackOk).rows
  {
    var t1 := PollTick(rows, d, true, false);
    assert BoundUser(t1.device) == BoundUser(d);
    var pending := Pending(rows, d);
    if pending.Some? {
      ActuateIdempotent(d, rows[pending.value]);
    }
  }

  /** Only the consumed row changes status; every other row, older open ones included, is untouched. */
  lemma TickAcknowledgesOnlyConsumed(rows: Table, d: Device)
    requires WellFormed(rows)
    requires Pending(rows, d).Some?
    ensures
      var k := Pending(rows, d).value;
      PollTick(rows, d, true, true).rows == rows[k := rows[k].(isCompleted := true)]
  {
    CompleteOnlyThatRow(rows, Pending(rows, d).value);
  }

  /**
   * Lock then unlock, end to end: a lock for quiz `quizId` is consumed by the
   * next tick, which locks the device on that quiz and acknowledges the row;
   * an unlock inserted afterwards is consumed by the tick after that, which
   * unlocks and releases the sleep blocker.
   */
  lemma LockThenUnlockEndToEnd(rows: Table, d: Device, quizId: QuizId, lockedAt: nat, unlockedAt: nat)
    requires WellFormed(rows)
    requires BoundUser(d).Some? && d.window.Some? && quizId != ""
    requires forall j :: 0 <= j < |rows| ==> rows[j].createdAt <= lockedAt
    requires lockedAt <= unlockedAt
    ensures
      var u := BoundUser(d).value;
      var r1 := Insert(rows, u, true, Some(quizId), lockedAt);
      var t1 := PollTick(r1, d, true, true);
      var t2 := PollTick(Insert(t1.rows, u, false, None, unlockedAt), t1.device, true, true);
      && t1.device.isQuizMode && t1.device.blocker.Some?
      && t1.device.window.value.url == QuizUrl(d.dev, quizId)
      && t1.rows[|rows|] == r1[|rows|].(isCompleted := true)
      && !t2.device.isQuizMode && t2.device.blocker.None?
      && t2.rows[|rows| + 1].isCompleted
  {
    var u := BoundUser(d).value;
    var r1 := Insert(rows, u, true, Some(quizId), lockedAt);
    InsertedIsLatest(rows, u, true, Some(quizId), lockedAt, Query(u, true, false));
    var t1 := PollTick(r1, d, true, true);
    assert BoundUser(t1.device) == Some(u);
    assert forall j :: 0 <= j < |t1.rows| ==> t1.rows[j].createdAt == r1[j].createdAt;
    InsertedIsLatest(t1.rows, u, false, None, unlockedAt, Query(u, true, false));
  }

  // ---------------------------------------------------------------------
  // Whole runs of the agent

  /** What can happen to a running agent: the user is bound, a tick fires, or the web app inserts a row. */
  datatype Event =
    | BindUser(id: UserId)
    | Poll(queryOk: bool, ackOk: bool)
    | Produce(userId: UserId, shouldLock: bool, quizId: Option<QuizId>, now: nat)

  /** Apply the events in order, accumulating the effect log. */
  function Run(rows: Table, d: Device, log: seq<Effect>, events: seq<Event>): (t: Tick)
    ensures Consistent(d, log) ==> Consistent(t.device, t.effects)
    ensures WellFormed(rows) ==> WellFormed(t.rows)
    decreases |events|
  {
    if |events| == 0 then Tick(rows, d, log)
    else
      match events[0]
      case BindUser(id) =>
        var a := SetUserId(d, id);
        ConsistentStep(d, log, a);
        Run(rows, a.device, log + a.effects, events[1..])
      case Poll(queryOk, ackOk) =>
        var t := PollTick(rows, d, queryOk, ackOk);
        ConsistentStep(d, log, Actuation(t.device, t.effects));
        Run(t.rows, t.device, log + t.effects, events[1..])
      case Produce(u, lock, quiz, now) =>
        Run(Insert(rows, u, lock, quiz, now), d, log, events[1..])
  }

  /**
   * From start-up on, whatever happens, at most one sleep blocker and one poll
   * interval are live, and no blocker handle is ever started twice.
   */
  lemma NeverDoubleAcquired(platform: Platform, dev: bool, persisted: Option<UserId>, rows: Table, events: seq<Event>)
    ensures
      var s := Startup(platform, dev, persisted);
      var t := Run(rows, s.device, s.effects, events);
      && ApplyBlockers({}, t.effects) == OptionSet(t.device.blocker)
      && |ApplyBlockers({}, t.effects)| <= 1
      && |ApplyTimers({}, t.effects)| <= 1
      && forall i, j :: 0 <= i < j < |t.effects| && t.effects[i].StartBlocker? && t.effects[j].StartBlocker? ==>
           t.effects[i].handle != t.effects[j].handle
  {
    var s := Startup(platform, dev, persisted);
    var t := Run(rows, s.device, s.effects, events);
    AtMostOneHeld(t.device, t.effects);
    NoBlockerStartedTwice(t.device, t.effects);
  }
}

=== FILE: home_page.dfy ===
/**
 * The quiz app's home page: it sends a signed-out visitor to the login page,
 * sends a user with an active lock to that lock's quiz, and otherwise shows
 * the welcome view.
 *
 * The active lock is the user's newest OPEN LOCK row; the joined quiz is
 * present when the row names a quiz that exists. A failed lookup reads as
 * no row.
 */
module HomePage {
  import opened Wrappers
  import opened LockStore
  import AdminDashboard

  datatype View = RedirectTo(path: string) | Welcome(userId: UserId)

  const LoginPath: string := "/login"

  /** The row the page's query returns: newest open lock instruction of the user. */
  function ActiveLock(rows: Table, userId: UserId): (k: Option<nat>)
    ensures k.Some? ==> IsNewest(rows, Query(userId, true, true), k.value)
    ensures k.Some? ==> rows[k.value].shouldLock && !rows[k.value].isCompleted && rows[k.value].userId == userId
    ensures k.None? <==> forall j :: 0 <= j < |rows| ==> !Matches(rows[j], Query(userId, true, true))
  {
    Latest(rows, Query(userId, true, true))
  }

  /** The quiz the active lock sends the user to, when its quiz exists. */
  function ActiveQuiz(rows: Table, userId: UserId, quizzes: set<QuizId>, queryOk: bool): (q: Option<QuizId>)
    ensures q.Some? ==> q.value in quizzes && queryOk && ActiveLock(rows, userId).Some?
    ensures q.Some? ==> rows[ActiveLock(rows, userId).value].quizId == q
    ensures queryOk && ActiveLock(rows, userId).Some? ==>
      var row := rows[ActiveLock(rows, userId).value];
      row.quizId.Some? && row.quizId.value in quizzes ==> q == row.quizId
  {
    if !queryOk then None
    else match ActiveLock(rows, userId)
      case None => None
      case Some(k) => if rows[k].quizId.Some? && rows[k].quizId.value in quizzes then rows[k].quizId else None
  }

  /** `Home`. `session` is the signed-in user, if any. */
  function Home(session: Option<UserId>, rows: Table, quizzes: set<QuizId>, queryOk: bool): (v: View)
    ensures session.None? <==> v == RedirectTo(LoginPath)
    ensures session.Some? && ActiveQuiz(rows, session.value, quizzes, queryOk).None? ==> v == Welcome(session.value)
    ensures session.Some? && ActiveQuiz(rows, session.value, quizzes, queryOk).Some? ==>
      v == RedirectTo("/quiz/" + ActiveQuiz(rows, session.value, quizzes, queryOk).value)
  {
    if session.None? then RedirectTo(LoginPath)
    else
      var u := session.value;
      match ActiveQuiz(rows, u, quizzes, queryOk)
      case Some(q) =>
        assert ("/quiz/" + q)[1] == 'q' != LoginPath[1];
        RedirectTo("/quiz/" + q)
      case None => Welcome(u)
  }

  /** Open unlock rows never change the page, however new they are. */
  lemma UnlockRowsIgnored(session: Option<UserId>, rows: Table, quizzes: set<QuizId>, userId: UserId, quizId: Option<QuizId>, now: nat)
    ensures Home(session, Insert(rows, userId, false, quizId, now), quizzes, true) == Home(session, rows, quizzes, true)
  {
    if session.Some? {
      InsertInvisible(rows, userId, false, quizId, now, Query(session.value, true, true));
    }
  }

  /**
   * A quiz lock sent from the dashboard takes the user to the quiz: once it
   * is the newest row, the page redirects to that quiz.
   */
  lemma DashboardLockRedirects(sel: AdminDashboard.Selection, st: AdminDashboard.Stores, now: nat, assignOk: bool, quizzes: set<QuizId>)
    requires AdminDashboard.Selected(sel) && sel.quiz.value in quizzes
    requires forall j :: 0 <= j < |st.locks| ==> st.locks[j].createdAt <= now
    ensures
      var locks := AdminDashboard.LockDeviceWithQuiz(sel, st, now, true, assignOk).stores.locks;
      Home(sel.user, locks, quizzes, true) == RedirectTo("/quiz/" + sel.quiz.value)
  {
    InsertedIsLatest(st.locks, sel.user.value, true, sel.quiz, now, Query(sel.user.value, true, true));
  }
}

=== FILE: legacy_agent.dfy ===
/**
 * The older desktop agent in `apps/quiz-app/main.js`: the user id starts
 * unbound, and each tick reads the user's newest instruction of ANY status,
 * acting only when that row is still open.
 */
module LegacyAgent {
  import opened Wrappers
  import opened LockStore
  import opened Agent
  import DeviceWrapper

  const DevUrl: string := "http://localhost:3000"
  const ProdAppUrl: string := "https://your-vercel-app.vercel.app"

  /** `appUrl`. */
  function AppUrl(dev: bool): string {
    if dev then DevUrl else ProdAppUrl
  }

  /** `${quizId}` in a template literal: a null quiz id renders as "null". */
  function QuizIdText(q: Option<QuizId>): string {
    if q.Some? then q.value else "null"
  }

  /** Process start: a visible window on the app, no user, no poller. */
  function Startup(platform: Platform, dev: bool): (a: Actuation)
    ensures BoundUser(a.device).None? && a.device.poller.None? && a.device.blocker.None?
    ensures a.device.window == Some(Window(AppUrl(dev), false, true, false))
    ensures Consistent(a.device, a.effects)
  {
    Actuation(Device(platform, dev, None, false, None, Some(Window(AppUrl(dev), false, true, false)), None, 0), [])
  }

  /** The `set-user-id` handler. */
  function SetUserId(d: Device, id: UserId): (a: Actuation)
    ensures a.device.userId == Some(id) && a.device.poller.Some?
    ensures a.device.blocker == d.blocker && a.device.window == d.window
    ensures Faithful(d, a) && NoAcquire(a.effects)
  {
    StartPolling(d.(userId := Some(id)))
  }

  /** `lockDevice`: like the newer agent's, but it keeps no quiz-mode flag. */
  function Lock(d: Device): (a: Actuation)
    ensures a.device.blocker.Some?
    ensures d.blocker.Some? ==> a.device.blocker == d.blocker
    ensures StartCount(a.effects) == (if d.blocker.None? then 1 else 0)
    ensures ExecCount(a.effects) == (if d.platform.OtherPlatform? then 0 else 1)
    ensures a.device.window.Some? <==> d.window.Some?
    ensures a.device.window.Some? ==>
      a.device.window.value == d.window.value.(alwaysOnTop := true, visible := true)
    ensures a.device.isQuizMode == d.isQuizMode
    ensures a.device.userId == d.userId && a.device.poller == d.poller
    ensures a.device.platform == d.platform && a.device.dev == d.dev
    ensures Faithful(d, a)
  {
    var b := AcquireBlocker(d);
    var w := if d.window.Some? then Some(d.window.value.(alwaysOnTop := true, visible := true)) else None;
    ExecCountAppend(b.effects, PlatformLock(d.platform));
    DeviceWrapper.AcquireThenLockCount(d);
    FaithfulThenExecs(d, Actuation(b.device.(window := w), b.effects), PlatformLock(d.platform));
    Actuation(b.device.(window := w), b.effects + PlatformLock(d.platform))
  }

  /** `unlockDevice`: release the blocker if held and drop always-on-top; the window stays shown. */
  function Unlock(d: Device): (a: Actuation)
    ensures a.device.blocker.None? && NoAcquire(a.effects)
    ensures d.blocker.None? ==> a.effects == []
    ensures a.device.window.Some? <==> d.window.Some?
    ensures a.device.window.Some? ==> a.device.window.value == d.window.value.(alwaysOnTop := false)
    ensures a.device.isQuizMode == d.isQuizMode
    ensures a.device.userId == d.userId && a.device.poller == d.poller
    ensures a.device.platform == d.platform && a.device.dev == d.dev
    ensures Faithful(d, a)
  {
    var b := ReleaseBlocker(d);
    var w := if d.window.Some? then Some(d.window.value.(alwaysOnTop := false)) else None;
    Actuation(b.device.(window := w), b.effects)
  }

  /** `showQuizWindow(quizId)`. */
  function ShowQuiz(d: Device, quizId: Option<QuizId>): (r: Device)
    ensures r.window.Some? <==> d.window.Some?
    ensures r.window.Some? ==> r.window.value == Window(AppUrl(d.dev) + "/quiz/" + QuizIdText(quizId), true, true, true)
    ensures r.(window := d.window) == d
  {
    ShowQuizAt(d, AppUrl(d.dev) + "/quiz/" + QuizIdText(quizId))
  }

  /** The row a tick reads: the bound user's newest instruction, whatever its status. */
  function Newest(rows: Table, d: Device): (k: Option<nat>)
    ensures k.Some? ==> BoundUser(d).Some? && IsNewest(rows, Query(BoundUser(d).value, false, false), k.value)
    ensures k.None? && BoundUser(d).Some? ==>
      forall j :: 0 <= j < |rows| ==> rows[j].userId != BoundUser(d).value
  {
    match BoundUser(d)
    case None => None
    case Some(u) => Latest(rows, Query(u, false, false))
  }

  /** One run of the interval callback of the older agent. */
  function PollTick(rows: Table, d: Device, queryOk: bool, ackOk: bool): (t: Tick)
    ensures t.device.window.Some? <==> d.window.Some?
    ensures !queryOk || Newest(rows, d).None? ==> t == Tick(rows, d, [])
    ensures queryOk && Newest(rows, d).Some? && rows[Newest(rows, d).value].isCompleted ==> t == Tick(rows, d, [])
    ensures queryOk && Newest(rows, d).Some? && !rows[Newest(rows, d).value].isCompleted ==>
      var row := rows[Newest(rows, d).value];
      && t.rows == (if ackOk then Complete(rows, row.id) else rows)
      && t.device.blocker.Some? == row.shouldLock
      && (row.shouldLock && d.window.Some? ==>
            t.device.window.value == Window(AppUrl(d.dev) + "/quiz/" + QuizIdText(row.quizId), true, true, true))
      && (!row.shouldLock && d.window.Some? ==>
            t.device.window.value == d.window.value.(alwaysOnTop := false))
    ensures t.device.userId == d.userId && t.device.poller == d.poller && t.device.isQuizMode == d.isQuizMode
    ensures t.device.platform == d.platform && t.device.dev == d.dev
    ensures d.blocker.Some? ==> NoAcquire(t.effects)
    ensures Faithful(d, Actuation(t.device, t.effects))
  {
    var newest := Newest(rows, d);
    if !queryOk || newest.None? then Tick(rows, d, [])
    else
      var row := rows[newest.value];
      var acked := if ackOk then Complete(rows, row.id) else rows;
      if row.shouldLock && !row.isCompleted then
        var a := Lock(d);
        NoAcquireCount(a.effects);
        Tick(acked, ShowQuiz(a.device, row.quizId), a.effects)
      else if !row.shouldLock && !row.isCompleted then
        var a := Unlock(d);
        Tick(acked, a.device, a.effects)
      else Tick(rows, d, [])
  }

  // ---------------------------------------------------------------------
  // Properties

  /** Until `set-user-id` is called, every tick is a no-op. */
  lemma UnboundUntilSet(platform: Platform, dev: bool, rows: Table, queryOk: bool, ackOk: bool)
    ensures
      var d := Startup(platform, dev).device;
      PollTick(rows, d, queryOk, ackOk) == Tick(rows, d, [])
  {
  }

  /** Repeated locks acquire the sleep blocker at most once and keep its handle. */
  lemma LockIdempotent(d: Device)
    ensures Lock(Lock(d).device).device == Lock(d).device
    ensures StartCount(Lock(Lock(d).device).effects) == 0
  {
  }

  /**
   * An open row behind a completed newest row is never acted on: the older
   * agent ignores stale instructions.
   */
  lemma IgnoresStaleOpenRows(rows: Table, d: Device, ackOk: bool, j: nat)
    requires Newest(rows, d).Some? && rows[Newest(rows, d).value].isCompleted
    requires j < |rows| && rows[j].userId == BoundUser(d).value && !rows[j].isCompleted
    ensures PollTick(rows, d, true, ackOk) == Tick(rows, d, [])
    ensures |PollTick(rows, d, true, ackOk).rows| == |rows|
    ensures PollTick(rows, d, true, ackOk).rows[j] == rows[j] && !PollTick(rows, d, true, ackOk).rows[j].isCompleted
    ensures PollTick(rows, d, true, ackOk).device == d && PollTick(rows, d, true, ackOk).effects == []
  {
  }

  /**
   * When the user's newest row is open, the two agents select the same row
   * and agree on the store, the sleep blocker and the effects they issue;
   * they differ only in window handling and the quiz-mode flag.
   */
  lemma AgentsAgreeOnOpenNewest(rows: Table, d: Device, ackOk: bool)
    requires Newest(rows, d).Some? && !rows[Newest(rows, d).value].isCompleted
    ensures DeviceWrapper.Pending(rows, d) == Newest(rows, d)
    ensures
      var w := DeviceWrapper.PollTick(rows, d, true, ackOk);
      var l := PollTick(rows, d, true, ackOk);
      && w.rows == l.rows
      && w.device.blocker == l.device.blocker
      && w.effects == l.effects
      && (d.window.Some? ==> w.device.window.value.alwaysOnTop == l.device.window.value.alwaysOnTop)
  {
    NewestOpenAgrees(rows, BoundUser(d).value, Newest(rows, d).value);
  }
}

=== FILE: lock_replay.dfy ===
/**
 * Stale-instruction replay in the newer agent, and the corrected tick.
 *
 * The newer agent consumes the newest OPEN row. Once that row is
 * acknowledged, the next tick finds the next-newest open row, so an older
 * instruction that was overtaken before the device polled is still applied,
 * later and out of order. A lock followed by an unlock leaves the device
 * locked. The older agent reads the newest row of any status and acts only
 * when it is open, which makes the most recent instruction win; the
 * corrected tick below keeps the newer agent's actuation with that
 * selection.
 */
module LockReplay {
  import opened Wrappers
  import opened LockStore
  import opened Agent
  import DeviceWrapper
  import LegacyAgent

  /** An agent bound to "u", unlocked, with its window open. */
  function BoundDevice(): Device {
    Device(Linux, false, Some("u"), false, None, Some(Window(DeviceWrapper.ProdDashboardUrl, false, false, false)), None, 0)
  }

  /** A lock for quiz "q" at time 1, overtaken by an unlock at time 2, before any poll. */
  function LockThenUnlock(): Table {
    [Instruction(0, "u", true, Some("q"), false, 1), Instruction(1, "u", false, None, false, 2)]
  }

  /**
   * As written: two successful ticks first apply the unlock, then replay the
   * overtaken lock, so the device ends locked although the last instruction
   * issued was an unlock.
   */
  lemma StaleLockReplayed()
    ensures
      var rows := LockThenUnlock();
      var t1 := DeviceWrapper.PollTick(rows, BoundDevice(), true, true);
      var t2 := DeviceWrapper.PollTick(t1.rows, t1.device, true, true);
      && !rows[1].shouldLock
      && !t1.device.isQuizMode
      && t2.device.isQuizMode && t2.device.blocker.Some?
  {
    var rows := LockThenUnlock();
    var q := Query("u", true, false);
    NewestIsLatest(rows, q, 1);
    var t1 := DeviceWrapper.PollTick(rows, BoundDevice(), true, true);
    assert t1.rows == [rows[0], rows[1].(isCompleted := true)];
    NewestIsLatest(t1.rows, q, 0);
  }

  /**
   * The corrected tick: select the user's newest row of any status, act
   * only if it is open, actuate as the newer agent does.
   */
  function LatestIntentTick(rows: Table, d: Device, queryOk: bool, ackOk: bool): (t: Tick)
    ensures !queryOk || LegacyAgent.Newest(rows, d).None? ==> t == Tick(rows, d, [])
    ensures queryOk && LegacyAgent.Newest(rows, d).Some? ==>
      var row := rows[LegacyAgent.Newest(rows, d).value];
      && (row.isCompleted ==> t == Tick(rows, d, []))
      && (!row.isCompleted ==>
            && t.rows == (if ackOk then Complete(rows, row.id) else rows)
            && t.device.isQuizMode == row.shouldLock
            && t.device.blocker.Some? == row.shouldLock)
    ensures t.device.userId == d.userId
    ensures Faithful(d, Actuation(t.device, t.effects))
  {
    var newest := LegacyAgent.Newest(rows, d);
    if !queryOk || newest.None? || rows[newest.value].isCompleted then Tick(rows, d, [])
    else
      var row := rows[newest.value];
      var a := DeviceWrapper.Actuate(d, row);
      Tick(if ackOk then Complete(rows, row.id) else rows, a.device, a.effects)
  }

  /**
   * Corrected: once a tick has acknowledged the newest row, later ticks do
   * nothing until a new instruction arrives, so the device keeps the state
   * of the most recent instruction.
   */
  lemma LatestIntentSettles(rows: Table, d: Device, queryOk: bool, ackOk: bool)
    requires WellFormed(rows)
    ensures
      var t1 := LatestIntentTick(rows, d, true, true);
      LatestIntentTick(t1.rows, t1.device, queryOk, ackOk) == Tick(t1.rows, t1.device, [])
  {
    var t1 := LatestIntentTick(rows, d, true, true);
    var newest := LegacyAgent.Newest(rows, d);
    assert BoundUser(t1.device) == BoundUser(d);
    if newest.Some? {
      var k := newest.value;
      var q := Query(BoundUser(d).value, false, false);
      if !rows[k].isCompleted {
        CompleteOnlyThatRow(rows, k);
        assert t1.rows == rows[k := rows[k].(isCompleted := true)];
        assert IsNewest(t1.rows, q, k);
        NewestIsLatest(t1.rows, q, k);
      }
    }
  }

  /** Corrected, on the same input: the device ends unlocked, as the last instruction says. */
  lemma LatestIntentOnLockThenUnlock()
    ensures
      var rows := LockThenUnlock();
      var t1 := LatestIntentTick(rows, BoundDevice(), true, true);
      var t2 := LatestIntentTick(t1.rows, t1.device, true, true);
      !t2.device.isQuizMode && t2.device.blocker.None?
  {
    var rows := LockThenUnlock();
    NewestIsLatest(rows, Query("u", false, false), 1);
    LatestIntentSettles(rows, BoundDevice(), true, true);
  }
}

=== FILE: lock_route.dfy ===
/**
 * The `POST /api/device-lock` route: an authenticated request to lock or
 * unlock a user's devices becomes one open instruction in `device_locks`.
 *
 * The request body is `None` when it cannot be parsed as JSON; the caller is
 * `None` when there is no authenticated user. `insertOk` is false when the
 * store reports an error for the insert, which the route rethrows.
 */
module LockRoute {
  import opened Wrappers
  import opened LockStore
  import Agent
  import DeviceWrapper

  datatype Body = Body(userId: UserId, shouldLock: bool, quizId: Option<QuizId>)

  datatype Caller = Caller(id: UserId, role: string)

  datatype Reply =
    | Requested(message: string, row: Instruction)  // 200 with `success: true`
    | Refused(error: string)                          // 401 or 500

  datatype Response = Response(status: nat, reply: Reply)

  datatype Outcome = Outcome(rows: Table, response: Response)

  const Unauthorized: string := "Unauthorized"
  const FailedToCreate: string := "Failed to create device lock"
  const LockRequested: string := "Device lock requested"
  const UnlockRequested: string := "Device unlock requested"

  /** The caller may write for `userId`: it is that user, or an admin. */
  predicate MayRequest(caller: Option<Caller>, userId: UserId) {
    caller.Some? && (caller.value.id == userId || caller.value.role == "admin")
  }

  /** The route handler. `now` is the store's `created_at` for the new row. */
  function Post(rows: Table, body: Option<Body>, caller: Option<Caller>, insertOk: bool, now: nat): (o: Outcome)
    ensures o.response.status in {200, 401, 500}
    ensures o.response.status != 200 ==> o.rows == rows && o.response.reply.Refused?
    ensures body.None? ==> o.response == Response(500, Refused(FailedToCreate))
    ensures body.Some? && !MayRequest(caller, body.value.userId) ==> o.response == Response(401, Refused(Unauthorized))
    ensures body.Some? && MayRequest(caller, body.value.userId) && !insertOk ==>
      o.response == Response(500, Refused(FailedToCreate))
    ensures o.response.status == 200 <==> body.Some? && MayRequest(caller, body.value.userId) && insertOk
    ensures o.response.status == 200 ==>
      && o.response.reply.Requested?
      && |o.rows| == |rows| + 1 && o.rows[..|rows|] == rows
      && o.response.reply.row == o.rows[|rows|]
      && o.rows[|rows|].userId == body.value.userId
      && o.rows[|rows|].shouldLock == body.value.shouldLock
      && !o.rows[|rows|].isCompleted
      && o.rows[|rows|].quizId == NullIfEmpty(body.value.quizId)
      && (o.response.reply.message == LockRequested <==> body.value.shouldLock)
      && (o.response.reply.message == UnlockRequested <==> !body.value.shouldLock)
    ensures WellFormed(rows) ==> WellFormed(o.rows)
  {
    if body.None? then Outcome(rows, Response(500, Refused(FailedToCreate)))
    else
      var b := body.value;
      if !MayRequest(caller, b.userId) then Outcome(rows, Response(401, Refused(Unauthorized)))
      else if !insertOk then Outcome(rows, Response(500, Refused(FailedToCreate)))
      else
        var rows' := Insert(rows, b.userId, b.shouldLock, NullIfEmpty(b.quizId), now);
        Outcome(rows', Response(200, Requested(if b.shouldLock then LockRequested else UnlockRequested, rows'[|rows|])))
  }

  /**
   * A granted request is what the user's device consumes next: when no row
   * is dated after `now`, the newer agent's next tick selects the new row.
   */
  lemma GrantedRequestIsPending(rows: Table, b: Body, caller: Option<Caller>, now: nat, d: Agent.Device)
    requires MayRequest(caller, b.userId)
    requires forall j :: 0 <= j < |rows| ==> rows[j].createdAt <= now
    requires Agent.BoundUser(d) == Some(b.userId)
    ensures
      var o := Post(rows, Some(b), caller, true, now);
      DeviceWrapper.Pending(o.rows, d) == Some(|rows|)
  {
    InsertedIsLatest(rows, b.userId, b.shouldLock, NullIfEmpty(b.quizId), now, Query(b.userId, true, false));
  }
}

=== FILE: lock_store.dfy ===
/**
 * The `device_locks` table: lock and unlock instructions for a user's
 * devices, appended by the web app and consumed by the desktop agents.
 *
 * Rows are kept in insertion order and a row's id is its position. The
 * store orders by `created_at` only; for rows with equal `created_at` this
 * model fixes the tie-break that the row inserted later is the newer one.
 */
module LockStore {
  import opened Wrappers

  type UserId = string
  type QuizId = string

  datatype Instruction = Instruction(
    id: nat,
    userId: UserId,
    shouldLock: bool,
    quizId: Option<QuizId>,
    isCompleted: bool,
    createdAt: nat)

  type Table = seq<Instruction>

  /** Ids are assigned by the store on insert; here they are row positions. */
  predicate WellFormed(rows: Table) {
    forall i :: 0 <= i < |rows| ==> rows[i].id == i
  }

  /** JavaScript truthiness of an optional string: present and non-empty. */
  predicate Truthy(s: Option<string>) {
    s.Some? && s.value != ""
  }

  /** `quizId || null`: an empty or absent quiz reference is stored as null. */
  function NullIfEmpty(q: Option<QuizId>): (r: Option<QuizId>)
    ensures r.Some? <==> Truthy(q)
    ensures r.Some? ==> r == q
  {
    if Truthy(q) then q else None
  }

  /** The row an insert of an open instruction creates. */
  function OpenRow(rows: Table, userId: UserId, shouldLock: bool, quizId: Option<QuizId>, now: nat): Instruction {
    Instruction(|rows|, userId, shouldLock, quizId, false, now)
  }

  /** Inserting an open instruction: one new row at the end, the rest untouched. */
  function Insert(rows: Table, userId: UserId, shouldLock: bool, quizId: Option<QuizId>, now: nat): (r: Table)
    ensures |r| == |rows| + 1 && r[..|rows|] == rows
    ensures !r[|rows|].isCompleted && r[|rows|].userId == userId
    ensures r[|rows|].shouldLock == shouldLock && r[|rows|].quizId == quizId
    ensures WellFormed(rows) ==> WellFormed(r)
  {
    rows + [OpenRow(rows, userId, shouldLock, quizId, now)]
  }

  /** `update({ is_completed: true }).eq("id", id)`. */
  function Complete(rows: Table, id: nat): (r: Table)
    ensures |r| == |rows|
    ensures forall i :: 0 <= i < |rows| && rows[i].id != id ==> r[i] == rows[i]
    ensures forall i :: 0 <= i < |rows| && rows[i].id == id ==> r[i] == rows[i].(isCompleted := true)
    ensures WellFormed(rows) ==> WellFormed(r)
  {
    seq(|rows|, i requires 0 <= i < |rows| =>
      if rows[i].id == id then rows[i].(isCompleted := true) else rows[i])
  }

  /** With ids unique, acknowledging row `k` changes that row's status and nothing else. */
  lemma CompleteOnlyThatRow(rows: Table, k: nat)
    requires WellFormed(rows) && k < |rows|
    ensures Complete(rows, rows[k].id) == rows[k := rows[k].(isCompleted := true)]
  {
  }

  // ---------------------------------------------------------------------
  // Selecting "the newest row matching a filter"

  /** The filters the consumers apply: the user, optionally only open rows, optionally only lock rows. */
  datatype Query = Query(userId: UserId, openOnly: bool, lockOnly: bool)

  predicate Matches(row: Instruction, q: Query) {
    && row.userId == q.userId
    && (q.openOnly ==> !row.isCompleted)
    && (q.lockOnly ==> row.shouldLock)
  }

  /** `order("created_at", { ascending: false })` with the insertion-order tie-break. */
  predicate NewerThan(rows: Table, i: nat, j: nat)
    requires i < |rows| && j < |rows|
  {
    rows[i].createdAt > rows[j].createdAt || (rows[i].createdAt == rows[j].createdAt && i > j)
  }

  /** Row `k` is what `limit(1)` returns for the query. */
  predicate IsNewest(rows: Table, q: Query, k: nat) {
    && k < |rows|
    && Matches(rows[k], q)
    && forall j :: 0 <= j < |rows| && j != k && Matches(rows[j], q) ==> NewerThan(rows, k, j)
  }

  /** The newest matching row among the first `n` rows. */
  function LatestBelow(rows: Table, q: Query, n: nat): (r: Option<nat>)
    requires n <= |rows|
    ensures r.Some? ==> r.value < n && Matches(rows[r.value], q)
    ensures r.Some? ==> forall j :: 0 <= j < n && j != r.value && Matches(rows[j], q) ==> NewerThan(rows, r.value, j)
    ensures r.None? ==> forall j :: 0 <= j < n ==> !Matches(rows[j], q)
  {
    if n == 0 then None
    else
      var p := LatestBelow(rows, q, n - 1);
      if Matches(rows[n - 1], q) && (p.None? || rows[n - 1].createdAt >= rows[p.value].createdAt) then Some(n - 1)
      else p
  }

  /** The position of the row a `select ... order by created_at desc limit 1` returns, if any. */
  function Latest(rows: Table, q: Query): (r: Option<nat>)
    ensures r.Some? ==> IsNewest(rows, q, r.value)
    ensures r.None? <==> forall j :: 0 <= j < |rows| ==> !Matches(rows[j], q)
  {
    LatestBelow(rows, q, |rows|)
  }

  /** The newest matching row is unique: any row that is newest is the one selected. */
  lemma NewestIsLatest(rows: Table, q: Query, k: nat)
    requires IsNewest(rows, q, k)
    ensures Latest(rows, q) == Some(k)
  {
    var m := Latest(rows, q);
    assert m.Some?;
  }

  /** A row inserted no earlier than every existing row is the newest row of every query it matches. */
  lemma InsertedIsLatest(rows: Table, userId: UserId, shouldLock: bool, quizId: Option<QuizId>, now: nat, q: Query)
    requires forall j :: 0 <= j < |rows| ==> rows[j].createdAt <= now
    requires Matches(OpenRow(rows, userId, shouldLock, quizId, now), q)
    ensures Latest(Insert(rows, userId, shouldLock, quizId, now), q) == Some(|rows|)
  {
    var r := Insert(rows, userId, shouldLock, quizId, now);
    assert forall j :: 0 <= j < |rows| ==> r[j] == rows[j];
    NewestIsLatest(r, q, |rows|);
  }

  /** An inserted row that a query does not match leaves that query's answer unchanged. */
  lemma InsertInvisible(rows: Table, userId: UserId, shouldLock: bool, quizId: Option<QuizId>, now: nat, q: Query)
    requires !Matches(OpenRow(rows, userId, shouldLock, quizId, now), q)
    ensures Latest(Insert(rows, userId, shouldLock, quizId, now), q) == Latest(rows, q)
  {
    var r := Insert(rows, userId, shouldLock, quizId, now);
    assert forall j :: 0 <= j < |rows| ==> r[j] == rows[j];
    var before := Latest(rows, q);
    if before.Some? {
      NewestIsLatest(r, q, before.value);
    }
  }

  /** The newest row of the user is open, so it is also the newest open row of the user. */
  lemma NewestOpenAgrees(rows: Table, userId: UserId, k: nat)
    requires Latest(rows, Query(userId, false, false)) == Some(k)
    requires !rows[k].isCompleted
    ensures Latest(rows, Query(userId, true, false)) == Some(k)
  {
    NewestIsLatest(rows, Query(userId, true, false), k);
  }
}

=== FILE: quiz_creator.dfy ===
/**
 * The quiz editor: a title, description and time limit, a non-empty list of
 * questions each with answer options, and a step counter; the validator
 * that gates saving; and the rows a save writes.
 */
module QuizCreator {
  import opened Wrappers
  import opened Text

  datatype Answer = Answer(text: string, isCorrect: bool)

  datatype Question = Question(text: string, explanation: string, answers: seq<Answer>)

  datatype Editor = Editor(
    title: string,
    description: string,
    timeLimit: string,
    questions: seq<Question>,
    step: int)

  /** A fresh question: blank text and four blank answers, the first marked correct. */
  function BlankQuestion(): (q: Question)
    ensures q.text == "" && q.explanation == "" && |q.answers| == 4
    ensures forall i :: 0 <= i < 4 ==> q.answers[i].text == "" && (q.answers[i].isCorrect <==> i == 0)
  {
    Question("", "", [Answer("", true), Answer("", false), Answer("", false), Answer("", false)])
  }

  /** The editor as first shown. */
  function NewEditor(): (e: Editor)
    ensures Shaped(e) && StepInRange(e) && UiStepInRange(e)
    ensures e.step == 0 && CardIndex(e).None?
  {
    Editor("", "", "", [BlankQuestion()], 0)
  }

  /** What every editor operation keeps: at least one question, each with four answers. */
  predicate Shaped(e: Editor) {
    |e.questions| >= 1 && forall i :: 0 <= i < |e.questions| ==> |e.questions[i].answers| == 4
  }

  /**
   * The bounds `nextStep` and `prevStep` keep. No rendered control calls
   * either, so the rendered editor keeps the wider `UiStepInRange` instead.
   */
  predicate StepInRange(e: Editor) {
    0 <= e.step <= |e.questions|
  }

  // ---------------------------------------------------------------------
  // Editing

  datatype Field = QuestionText | Explanation

  /** `handleQuestionChange(index, field, value)`. */
  function ChangeQuestion(e: Editor, index: nat, field: Field, value: string): (r: Editor)
    requires index < |e.questions|
    ensures |r.questions| == |e.questions|
    ensures forall i :: 0 <= i < |e.questions| && i != index ==> r.questions[i] == e.questions[i]
    ensures field == QuestionText ==> r.questions[index] == e.questions[index].(text := value)
    ensures field == Explanation ==> r.questions[index] == e.questions[index].(explanation := value)
    ensures r.(questions := e.questions) == e
    ensures Shaped(e) ==> Shaped(r)
  {
    var q := e.questions[index];
    var q' := match field
      case QuestionText => q.(text := value)
      case Explanation => q.(explanation := value);
    e.(questions := e.questions[index := q'])
  }

  /** `handleAnswerChange(questionIndex, answerIndex, value)`: only that answer's text changes. */
  function ChangeAnswer(e: Editor, qi: nat, ai: nat, value: string): (r: Editor)
    requires qi < |e.questions| && ai < |e.questions[qi].answers|
    ensures |r.questions| == |e.questions|
    ensures forall i :: 0 <= i < |e.questions| && i != qi ==> r.questions[i] == e.questions[i]
    ensures var a := r.questions[qi].answers;
      && |a| == |e.questions[qi].answers|
      && a[ai] == e.questions[qi].answers[ai].(text := value)
      && forall j :: 0 <= j < |a| && j != ai ==> a[j] == e.questions[qi].answers[j]
    ensures r.questions[qi].(answers := e.questions[qi].answers) == e.questions[qi]
    ensures r.(questions := e.questions) == e
    ensures Shaped(e) ==> Shaped(r)
  {
    var q := e.questions[qi];
    e.(questions := e.questions[qi := q.(answers := q.answers[ai := q.answers[ai].(text := value)])])
  }

  /**
   * `handleCorrectAnswerChange(questionIndex, answerIndex)`: every answer is
   * marked correct exactly when its position equals the choice. The choice
   * comes from `Number.parseInt` and is `None` for NaN, which equals no
   * position.
   */
  function ChooseCorrect(e: Editor, qi: nat, choice: Option<int>): (r: Editor)
    requires qi < |e.questions|
    ensures |r.questions| == |e.questions|
    ensures forall i :: 0 <= i < |e.questions| && i != qi ==> r.questions[i] == e.questions[i]
    ensures var a := r.questions[qi].answers;
      && |a| == |e.questions[qi].answers|
      && forall j :: 0 <= j < |a| ==>
           a[j].text == e.questions[qi].answers[j].text && (a[j].isCorrect <==> choice == Some(j))
    ensures r.questions[qi].text == e.questions[qi].text
    ensures r.questions[qi].explanation == e.questions[qi].explanation
    ensures r.(questions := e.questions) == e
    ensures Shaped(e) ==> Shaped(r)
  {
    var q := e.questions[qi];
    var a := seq(|q.answers|, j requires 0 <= j < |q.answers| => q.answers[j].(isCorrect := choice == Some(j)));
    e.(questions := e.questions[qi := q.(answers := a)])
  }

  /** The answers of a question marked correct. */
  function CorrectCount(a: seq<Answer>): (n: nat)
    ensures n <= |a|
    ensures n == 0 <==> forall j :: 0 <= j < |a| ==> !a[j].isCorrect
  {
    if |a| == 0 then 0 else CorrectCount(a[..|a| - 1]) + (if a[|a| - 1].isCorrect then 1 else 0)
  }

  /** After a choice in range, the question has exactly one correct answer, the chosen one. */
  lemma {:induction false} ExactlyOneCorrect(e: Editor, qi: nat, ai: nat)
    requires qi < |e.questions| && ai < |e.questions[qi].answers|
    ensures var a := ChooseCorrect(e, qi, Some(ai)).questions[qi].answers;
      a[ai].isCorrect && CorrectCount(a) == 1
  {
    var a := ChooseCorrect(e, qi, Some(ai)).questions[qi].answers;
    OnlyOneCorrect(a, ai);
  }

  /** Marking a non-blank answer correct satisfies the validator's correct-answer check. */
  lemma ChoosingNonBlankAnswer(e: Editor, qi: nat, ai: nat)
    requires qi < |e.questions| && ai < |e.questions[qi].answers|
    requires !IsBlank(e.questions[qi].answers[ai].text)
    ensures HasValidAnswer(ChooseCorrect(e, qi, Some(ai)).questions[qi])
  {
    var a := ChooseCorrect(e, qi, Some(ai)).questions[qi].answers;
    assert a[ai].text == e.questions[qi].answers[ai].text && a[ai].isCorrect;
  }

  lemma {:induction false} OnlyOneCorrect(a: seq<Answer>, k: nat)
    requires k < |a| && a[k].isCorrect
    requires forall j :: 0 <= j < |a| && j != k ==> !a[j].isCorrect
    ensures CorrectCount(a) == 1
    decreases |a|
  {
    var init := a[..|a| - 1];
    if k < |a| - 1 {
      OnlyOneCorrect(init, k);
    } else {
      assert forall j :: 0 <= j < |init| ==> !init[j].isCorrect;
    }
  }

  /** `addQuestion`. */
  function AddQuestion(e: Editor): (r: Editor)
    ensures |r.questions| == |e.questions| + 1
    ensures r.questions[..|e.questions|] == e.questions
    ensures r.questions[|e.questions|] == BlankQuestion()
    ensures r.(questions := e.questions) == e
    ensures Shaped(e) ==> Shaped(r)
    ensures StepInRange(e) ==> StepInRange(r)
  {
    e.(questions := e.questions + [BlankQuestion()])
  }

  /**
   * The position `splice(index, 1)` removes from an array of length `n`: a
   * negative index counts from the end, and a position past the end removes
   * nothing.
   */
  function SpliceStart(n: nat, index: int): (k: nat)
    ensures index >= 0 ==> k == index
    ensures index < 0 && n + index >= 0 ==> k == n + index
    ensures index < 0 && n + index < 0 ==> k == 0
  {
    if index >= 0 then index else if n + index >= 0 then n + index else 0
  }

  /**
   * `removeQuestion(index)`: with more than one question, remove the one at
   * the spliced position (if any) and pull the step back inside the new
   * list.
   */
  function RemoveQuestion(e: Editor, index: int): (r: Editor)
    ensures |e.questions| <= 1 ==> r == e
    ensures |e.questions| > 1 && SpliceStart(|e.questions|, index) < |e.questions| ==>
      var k := SpliceStart(|e.questions|, index);
      && r.questions == e.questions[..k] + e.questions[k + 1..]
      && r.step == (if e.step >= |e.questions| - 1 then |e.questions| - 2 else e.step)
    ensures |e.questions| > 1 && SpliceStart(|e.questions|, index) >= |e.questions| ==>
      r.questions == e.questions && r.step == (if e.step >= |e.questions| then |e.questions| - 1 else e.step)
    ensures r.(questions := e.questions, step := e.step) == e
    ensures Shaped(e) ==> Shaped(r)
    ensures StepInRange(e) ==> StepInRange(r)
  {
    if |e.questions| <= 1 then e
    else
      var k := SpliceStart(|e.questions|, index);
      var qs := if k < |e.questions| then e.questions[..k] + e.questions[k + 1..] else e.questions;
      assert forall i :: 0 <= i < |qs| ==> qs[i] in e.questions;
      e.(questions := qs, step := if e.step >= |qs| then |qs| - 1 else e.step)
  }

  /** `nextStep`; `NextStepsStopAtEnd` states where repeated presses end. */
  function NextStep(e: Editor): (r: Editor)
    ensures e.step < |e.questions| ==> r == e.(step := e.step + 1)
    ensures e.step >= |e.questions| ==> r == e
    ensures StepInRange(e) ==> StepInRange(r)
  {
    if e.step < |e.questions| then e.(step := e.step + 1) else e
  }

  /** `prevStep`; like `NextStep`, it keeps the step within `StepInRange`. */
  function PrevStep(e: Editor): (r: Editor)
    ensures e.step > 0 ==> r == e.(step := e.step - 1)
    ensures e.step <= 0 ==> r == e
    ensures StepInRange(e) ==> StepInRange(r)
  {
    if e.step > 0 then e.(step := e.step - 1) else e
  }

  /** Stepping forward as far as possible ends on the last step. */
  lemma {:induction false} NextStepsStopAtEnd(e: Editor, n: nat)
    requires StepInRange(e) && n >= |e.questions| - e.step
    ensures StepsForward(e, n).step == |e.questions|
    decreases n
  {
    if n > 0 && e.step < |e.questions| {
      NextStepsStopAtEnd(NextStep(e), n - 1);
    } else if n > 0 {
      NextStepsStopAtEnd(e, n - 1);
    }
  }

  function StepsForward(e: Editor, n: nat): (r: Editor)
    ensures r.questions == e.questions
    decreases n
  {
    if n == 0 then e else StepsForward(NextStep(e), n - 1)
  }

  // ---------------------------------------------------------------------
  // The rendered editor's step controls
  //
  // No rendered control calls `nextStep` or `prevStep`; the buttons set the
  // step directly. Step 0 is the details tab, step 1 the question list, and
  // step `k + 2` the card of question `k`. On the last card, at step
  // `|questions| + 1`, a Save button replaces "Next Question"; the Save
  // button in the card footer is shown on every step.

  /** The step bound the rendered controls keep: every card step names a question. */
  predicate UiStepInRange(e: Editor) {
    0 <= e.step <= |e.questions| + 1
  }

  /** The controls that change the step or the question list. */
  datatype Control =
    | DetailsTab              // the "Quiz Details" tab trigger
    | QuestionsTab            // the "Questions" tab trigger
    | ContinueToQuestions     // "Continue to Questions"
    | Jump(idx: nat)          // the numbered button of question `idx` in the grid
    | EditFirstQuestion       // "Edit First Question"
    | AddQuestionButton       // "Add Question"
    | BackToList              // "Back to Question List"
    | NextQuestion            // "Next Question"
    | RemoveCurrent           // "Remove Question" on the current card

  /** The question whose card is on screen, if any. */
  function CardIndex(e: Editor): (k: Option<nat>)
    ensures k.Some? <==> e.step >= 2
    ensures k.Some? && UiStepInRange(e) ==> k.value < |e.questions|
    ensures k.Some? ==> k.value + 2 == e.step
  {
    if e.step >= 2 then Some(e.step - 2) else None
  }

  /** The Save button replaces "Next Question" on a card at step `|questions| + 1` or beyond. */
  predicate SaveShown(e: Editor) {
    e.step >= 2 && e.step >= |e.questions| + 1
  }

  /** Whether a control is on screen: the list's controls at step 1, the card's from step 2. */
  predicate Shown(e: Editor, c: Control) {
    match c
    case DetailsTab => true
    case QuestionsTab => true
    case ContinueToQuestions => true
    case Jump(idx) => e.step == 1 && idx < |e.questions|
    case EditFirstQuestion => e.step == 1
    case AddQuestionButton => e.step == 1
    case BackToList => e.step >= 2
    case NextQuestion => e.step >= 2 && !SaveShown(e)
    case RemoveCurrent => e.step >= 2
  }

  /** Pressing a control; a control that is not on screen cannot be pressed. */
  function Press(e: Editor, c: Control): (r: Editor)
    ensures !Shown(e, c) ==> r == e
    ensures Shown(e, c) && c.NextQuestion? ==> r == e.(step := e.step + 1)
    ensures Shown(e, c) && c.Jump? ==> r == e.(step := c.idx + 1)
    ensures Shown(e, c) && c.RemoveCurrent? ==> r == RemoveQuestion(e, e.step - 2)
    ensures Shown(e, c) && c.AddQuestionButton? ==> r == AddQuestion(e)
    ensures !c.RemoveCurrent? && !c.AddQuestionButton? ==> r.questions == e.questions
    ensures r.(questions := e.questions, step := e.step) == e
    ensures Shaped(e) ==> Shaped(r)
    ensures Shaped(e) && UiStepInRange(e) ==> UiStepInRange(r)
  {
    if !Shown(e, c) then e
    else
      match c
      case DetailsTab => e.(step := 0)
      case QuestionsTab => e.(step := 1)
      case ContinueToQuestions => e.(step := 1)
      case Jump(idx) => e.(step := idx + 1)
      case EditFirstQuestion => e.(step := 2)
      case AddQuestionButton => AddQuestion(e)
      case BackToList => e.(step := 1)
      case NextQuestion => e.(step := e.step + 1)
      case RemoveCurrent => RemoveQuestion(e, e.step - 2)
  }

  /** Pressing controls in order. */
  function PressAll(e: Editor, cs: seq<Control>): (r: Editor)
    decreases |cs|
  {
    if |cs| == 0 then e else PressAll(Press(e, cs[0]), cs[1..])
  }

  /**
   * Whatever the user presses, the editor keeps its shape and the step keeps
   * naming the details tab, the list or a question's card.
   */
  lemma {:induction false} PressAllKeepsRange(e: Editor, cs: seq<Control>)
    requires Shaped(e) && UiStepInRange(e)
    ensures Shaped(PressAll(e, cs)) && UiStepInRange(PressAll(e, cs))
    ensures PressAll(e, cs).title == e.title
    decreases |cs|
  {
    if |cs| > 0 {
      PressAllKeepsRange(Press(e, cs[0]), cs[1..]);
    }
  }

  /** Pressing "Next Question" `n` times. */
  function NextQuestions(e: Editor, n: nat): (r: Editor)
    ensures r.questions == e.questions
    decreases n
  {
    if n == 0 then e else NextQuestions(Press(e, NextQuestion), n - 1)
  }

  /**
   * From any card, enough "Next Question" presses reach the last card, step
   * `|questions| + 1`, which lies outside `StepInRange` and is where Save
   * appears; further presses do nothing.
   */
  lemma {:induction false} NextQuestionsReachSave(e: Editor, n: nat)
    requires 2 <= e.step <= |e.questions| + 1
    requires n >= |e.questions| + 1 - e.step
    ensures NextQuestions(e, n).step == |e.questions| + 1
    ensures SaveShown(NextQuestions(e, n)) && !StepInRange(NextQuestions(e, n))
    ensures CardIndex(NextQuestions(e, n)) == Some(|e.questions| - 1)
    decreases n
  {
    if n > 0 {
      NextQuestionsReachSave(Press(e, NextQuestion), n - 1);
    }
  }

  /**
   * The grid button of question `idx` sets the step to `idx + 1`, which shows
   * the card of question `idx - 1`, or stays on the list for the first one.
   */
  lemma JumpShowsPreviousCard(e: Editor, idx: nat)
    requires e.step == 1 && idx < |e.questions|
    ensures idx == 0 ==> CardIndex(Press(e, Jump(idx))).None?
    ensures idx > 0 ==> CardIndex(Press(e, Jump(idx))) == Some(idx - 1)
  {
  }

  // ---------------------------------------------------------------------
  // Validation

  /** `answers.filter(a => a.answerText.trim())`, in order. */
  function ValidAnswers(a: seq<Answer>): (r: seq<Answer>)
    ensures |r| <= |a|
    ensures forall x :: x in r <==> x in a && !IsBlank(x.text)
    decreases |a|
  {
    if |a| == 0 then []
    else
      var init := ValidAnswers(a[..|a| - 1]);
      assert a == a[..|a| - 1] + [a[|a| - 1]];
      if IsBlank(a[|a| - 1].text) then init else init + [a[|a| - 1]]
  }

  /** The filter keeps every non-blank answer as often as it occurs, and nothing else. */
  lemma {:induction false} ValidAnswersCount(a: seq<Answer>)
    ensures forall x :: multiset(ValidAnswers(a))[x] == (if IsBlank(x.text) then 0 else multiset(a)[x])
    decreases |a|
  {
    if |a| > 0 {
      var init := a[..|a| - 1];
      assert a == init + [a[|a| - 1]];
      ValidAnswersCount(init);
    }
  }

  /**
   * The filter keeps order: filtering a concatenation is concatenating the
   * filtered parts, so each kept answer stays where it stood relative to the others.
   */
  lemma {:induction false} ValidAnswersAppend(a: seq<Answer>, b: seq<Answer>)
    ensures ValidAnswers(a + b) == ValidAnswers(a) + ValidAnswers(b)
    decreases |b|
  {
    if |b| > 0 {
      var b' := b[..|b| - 1];
      assert (a + b)[..|a + b| - 1] == a + b';
      assert (a + b)[|a + b| - 1] == b[|b| - 1];
      ValidAnswersAppend(a, b');
    } else {
      assert a + b == a;
    }
  }

  /** Some non-blank answer is marked correct. */
  predicate HasValidAnswer(q: Question) {
    exists j :: 0 <= j < |q.answers| && !IsBlank(q.answers[j].text) && q.answers[j].isCorrect
  }

  /** What the validator asks of a question. */
  predicate QuestionOk(q: Question) {
    !IsBlank(q.text) && HasValidAnswer(q) && |ValidAnswers(q.answers)| >= 2
  }

  /** What the validator asks of the whole quiz. */
  predicate QuizOk(e: Editor) {
    !IsBlank(e.title) && forall i :: 0 <= i < |e.questions| ==> QuestionOk(e.questions[i])
  }

  /** The toast the validator shows. */
  datatype Problem =
    | MissingTitle
    | MissingQuestion(index: nat)
    | MissingCorrectAnswer(index: nat)
    | NotEnoughAnswers(index: nat)

  /** The first check a question fails, in the validator's order. */
  function FirstProblem(q: Question, i: nat): (p: Option<Problem>)
    ensures p.None? <==> QuestionOk(q)
    ensures p.Some? ==> !p.value.MissingTitle? && p.value.index == i
  {
    if IsBlank(q.text) then Some(MissingQuestion(i))
    else if !HasValidAnswer(q) then Some(MissingCorrectAnswer(i))
    else if |ValidAnswers(q.answers)| < 2 then Some(NotEnoughAnswers(i))
    else None
  }

  /** The `for (const answer of question.answers)` search with its `break`. */
  method FindValidAnswer(q: Question) returns (found: bool)
    ensures found <==> HasValidAnswer(q)
  {
    found := false;
    var j := 0;
    while j < |q.answers|
      invariant 0 <= j <= |q.answers|
      invariant forall k :: 0 <= k < j ==> IsBlank(q.answers[k].text) || !q.answers[k].isCorrect
    {
      if !IsBlank(q.answers[j].text) && q.answers[j].isCorrect {
        found := true;
        return;
      }
      j := j + 1;
    }
  }

  /**
   * `validateQuiz`: the title first, then each question in order; the first
   * failing question moves the step to its position plus one.
   */
  method Validate(e: Editor) returns (problem: Option<Problem>, r: Editor)
    ensures problem.None? <==> QuizOk(e)
    ensures problem.None? ==> r == e
    ensures IsBlank(e.title) ==> problem == Some(MissingTitle) && r == e
    ensures problem.Some? && !problem.value.MissingTitle? ==>
      var i := problem.value.index;
      && !IsBlank(e.title)
      && i < |e.questions|
      && (forall j :: 0 <= j < i ==> QuestionOk(e.questions[j]))
      && problem == FirstProblem(e.questions[i], i)
      && r == e.(step := i + 1)
    ensures StepInRange(e) ==> StepInRange(r)
    ensures UiStepInRange(e) ==> UiStepInRange(r)
  {
    if IsBlank(e.title) {
      return Some(MissingTitle), e;
    }
    var i := 0;
    while i < |e.questions|
      invariant 0 <= i <= |e.questions|
      invariant forall j :: 0 <= j < i ==> QuestionOk(e.questions[j])
    {
      var q := e.questions[i];
      if IsBlank(q.text) {
        return Some(MissingQuestion(i)), e.(step := i + 1);
      }
      var hasValid := FindValidAnswer(q);
      if !hasValid {
        return Some(MissingCorrectAnswer(i)), e.(step := i + 1);
      }
      if |ValidAnswers(q.answers)| < 2 {
        return Some(NotEnoughAnswers(i)), e.(step := i + 1);
      }
      i := i + 1;
    }
    return None, e;
  }

  /** The editor as first shown fails validation on its blank title. */
  lemma NewEditorRejected()
    ensures !QuizOk(NewEditor())
    ensures IsBlank(NewEditor().title)
  {
  }

  // ---------------------------------------------------------------------
  // Saving

  /** `timeLimit ? Number.parseInt(timeLimit) * 60 : null`; NaN is stored as null. */
  function TimeLimitSeconds(s: string): (r: Option<int>)
    ensures s == "" ==> r.None?
    ensures s != "" && ParseInt(s).Some? ==> r == Some(ParseInt(s).value * 60)
    ensures s != "" && ParseInt(s).None? ==> r.None?
  {
    if s == "" then None
    else match ParseInt(s)
      case None => None
      case Some(n) => Some(n * 60)
  }

  /** A limit typed as a whole number of minutes is stored as that many minutes in seconds. */
  lemma MinutesToSeconds(n: nat)
    ensures TimeLimitSeconds(Decimal(n)) == Some(n * 60)
  {
    DecimalShape(n);
    ParseIntOfDecimal(n);
  }

  /** The row a save writes for one question. */
  datatype QuestionRow = QuestionRow(
    text: string,
    explanation: string,
    orderIndex: nat,
    answers: seq<Answer>,
    correct: Option<nat>)   // position in `answers` of the answer `correct_answer_id` ends on

  /** What a save writes: the quiz row and its questions in order. */
  datatype SavePlan = SavePlan(
    title: string,
    description: string,
    createdBy: string,
    timeLimitSeconds: Option<int>,
    questions: seq<QuestionRow>)

  /** Each correct answer written overwrites `correct_answer_id`, so the last one wins. */
  function LastCorrect(a: seq<Answer>): (k: Option<nat>)
    ensures k.Some? ==> k.value < |a| && a[k.value].isCorrect
    ensures k.Some? ==> forall j :: k.value < j < |a| ==> !a[j].isCorrect
    ensures k.None? <==> forall j :: 0 <= j < |a| ==> !a[j].isCorrect
    decreases |a|
  {
    if |a| == 0 then None
    else if a[|a| - 1].isCorrect then Some(|a| - 1)
    else LastCorrect(a[..|a| - 1])
  }

  /** The question row a save writes, and the answer its `correct_answer_id` ends on. */
  function PlanQuestion(q: Question, i: nat): (r: QuestionRow)
    ensures r.orderIndex == i && r.text == q.text && r.explanation == q.explanation
    ensures r.answers == ValidAnswers(q.answers)
    ensures r.correct == LastCorrect(r.answers)
  {
    var valid := ValidAnswers(q.answers);
    QuestionRow(q.text, q.explanation, i, valid, LastCorrect(valid))
  }

  /** `saveQuiz`: nothing is written unless the quiz validates. */
  method Save(e: Editor, userId: string) returns (plan: Option<SavePlan>, r: Editor)
    ensures plan.Some? <==> QuizOk(e)
    ensures plan.None? ==> !QuizOk(e)
    ensures plan.Some? ==>
      var p := plan.value;
      && p.title == e.title && p.description == e.description && p.createdBy == userId
      && p.timeLimitSeconds == TimeLimitSeconds(e.timeLimit)
      && |p.questions| == |e.questions|
      && forall i :: 0 <= i < |p.questions| ==>
           && p.questions[i].orderIndex == i
           && p.questions[i].text == e.questions[i].text
           && p.questions[i].explanation == e.questions[i].explanation
           && p.questions[i].answers == ValidAnswers(e.questions[i].answers)
           && |p.questions[i].answers| >= 2
           && p.questions[i].correct == LastCorrect(p.questions[i].answers)
           && p.questions[i].correct.Some?
    ensures plan.Some? ==> r == e
  {
    var problem;
    problem, r := Validate(e);
    if problem.Some? {
      return None, r;
    }
    var rows := seq(|e.questions|, i requires 0 <= i < |e.questions| => PlanQuestion(e.questions[i], i));
    forall i | 0 <= i < |rows|
      ensures rows[i].correct.Some?
    {
      ValidatedHasCorrect(e.questions[i]);
    }
    plan := Some(SavePlan(e.title, e.description, userId, TimeLimitSeconds(e.timeLimit), rows));
  }

  /** A validated question keeps a correct answer among the answers that are written. */
  lemma ValidatedHasCorrect(q: Question)
    requires QuestionOk(q)
    ensures LastCorrect(ValidAnswers(q.answers)).Some?
    ensures var v := ValidAnswers(q.answers); !IsBlank(v[LastCorrect(v).value].text)
  {
    var j :| 0 <= j < |q.answers| && !IsBlank(q.answers[j].text) && q.answers[j].isCorrect;
    var v := ValidAnswers(q.answers);
    assert q.answers[j] in v;
    var k :| 0 <= k < |v| && v[k] == q.answers[j];
    assert v[LastCorrect(v).value] in v;
  }
}

=== FILE: quiz_renderer.dfy ===
/**
 * Taking a quiz: select an answer, submit it, move to the next question,
 * complete; the countdown; the `m:ss` display; and the completion hand-off
 * that records the result and releases the device.
 */
module QuizRenderer {
  import opened Wrappers
  import opened Text
  import opened LockStore
  import opened UserQuizzes
  import QuizResults
  import Agent
  import DeviceWrapper

  /** A question as the renderer receives it; the correct answer id may be null. */
  datatype QuizQuestion = QuizQuestion(id: string, correctAnswerId: Option<string>)

  /** One `user_answers` insert the renderer issues. */
  datatype Submission = Submission(questionId: string, selected: string, isCorrect: bool)

  datatype Taking = Taking(
    index: nat,
    selected: Option<string>,
    submitted: bool,
    isCorrect: bool,
    answers: map<string, string>,
    score: nat,
    completed: bool,
    submissions: seq<Submission>)

  /** The state on first render. */
  function Start(): (t: Taking)
    ensures t.index == 0 && t.score == 0 && !t.submitted && !t.completed && |t.submissions| == 0
  {
    Taking(0, None, false, false, map[], 0, false, [])
  }

  /** Submissions that were correct. */
  function CorrectSubmissions(s: seq<Submission>): (n: nat)
    ensures n <= |s|
  {
    if |s| == 0 then 0 else CorrectSubmissions(s[..|s| - 1]) + (if s[|s| - 1].isCorrect then 1 else 0)
  }

  /**
   * What the machine keeps: the index names a question; the score counts the
   * correct submissions; at most one submission per question reached.
   */
  predicate Inv(t: Taking, qs: seq<QuizQuestion>) {
    && t.index < |qs|
    && t.score == CorrectSubmissions(t.submissions)
    && |t.submissions| <= t.index + (if t.submitted then 1 else 0)
  }

  lemma StartInv(qs: seq<QuizQuestion>)
    requires |qs| > 0
    ensures Inv(Start(), qs)
  {
  }

  /**
   * `handleAnswerSelect`: the choice changes only before submission. Its
   * place in a whole attempt is stated by `Step` and `Play`.
   */
  function Select(t: Taking, answerId: string): (r: Taking)
    ensures t.submitted ==> r == t
    ensures !t.submitted ==> r == t.(selected := Some(answerId))
    ensures r.score == t.score && r.submissions == t.submissions && r.index == t.index && r.submitted == t.submitted
  {
    if t.submitted then t else t.(selected := Some(answerId))
  }

  /**
   * `handleSubmitAnswer`: with a (non-empty) selection and no earlier
   * submission, grade the choice against the question's correct answer,
   * record it under the question id and issue one `user_answers` insert.
   */
  function Submit(t: Taking, qs: seq<QuizQuestion>): (r: Taking)
    requires t.index < |qs|
    ensures !Truthy(t.selected) || t.submitted ==> r == t
    ensures Truthy(t.selected) && !t.submitted ==>
      var q := qs[t.index];
      var correct := t.selected == q.correctAnswerId;
      && r.submitted && r.isCorrect == correct
      && r.score == t.score + (if correct then 1 else 0)
      && r.answers == t.answers[q.id := t.selected.value]
      && r.submissions == t.submissions + [Submission(q.id, t.selected.value, correct)]
      && r.index == t.index && r.selected == t.selected && r.completed == t.completed
    ensures Inv(t, qs) ==> Inv(r, qs)
  {
    if !Truthy(t.selected) || t.submitted then t
    else
      var q := qs[t.index];
      var correct := t.selected == q.correctAnswerId;
      var s := t.submissions + [Submission(q.id, t.selected.value, correct)];
      assert s[..|s| - 1] == t.submissions;
      t.(submitted := true, isCorrect := correct, score := t.score + (if correct then 1 else 0),
         answers := t.answers[q.id := t.selected.value], submissions := s)
  }

  /**
   * `handleNextQuestion`: move on and clear the answer, or on the last
   * question mark the quiz completed (the hand-off runs then).
   */
  function Next(t: Taking, qs: seq<QuizQuestion>): (r: Taking)
    ensures t.index + 1 < |qs| ==> r == t.(index := t.index + 1, selected := None, submitted := false)
    ensures t.index + 1 >= |qs| ==> r == t.(completed := true)
    ensures Inv(t, qs) ==> Inv(r, qs)
  {
    if t.index + 1 < |qs| then t.(index := t.index + 1, selected := None, submitted := false)
    else t.(completed := true)
  }

  /** The score never exceeds the number of questions. */
  lemma ScoreBounded(t: Taking, qs: seq<QuizQuestion>)
    requires Inv(t, qs)
    ensures t.score <= |t.submissions| <= |qs|
  {
  }

  datatype Action = SelectAnswer(answerId: string) | SubmitAnswer | NextQuestion

  function Step(t: Taking, qs: seq<QuizQuestion>, a: Action): (r: Taking)
    requires t.index < |qs|
    ensures Inv(t, qs) ==> Inv(r, qs)
  {
    match a
    case SelectAnswer(id) => Select(t, id)
    case SubmitAnswer => Submit(t, qs)
    case NextQuestion => Next(t, qs)
  }

  /** Any run of the user's actions from the start keeps the machine's invariant. */
  function Play(t: Taking, qs: seq<QuizQuestion>, actions: seq<Action>): (r: Taking)
    requires Inv(t, qs)
    ensures Inv(r, qs)
    ensures r.score <= |qs|
    decreases |actions|
  {
    if |actions| == 0 then t
    else
      Play(Step(t, qs, actions[0]), qs, actions[1..])
  }

  /** The result card once completed: percentage against the number of questions and the pass mark. */
  function Outcome(t: Taking, qs: seq<QuizQuestion>): (r: (nat, bool))
    requires Inv(t, qs)
    ensures r.0 == QuizResults.RoundedPercent(t.score, |qs|) && r.0 <= 100
    ensures r.1 <==> 200 * t.score >= 139 * |qs|
  {
    var p := QuizResults.RoundedPercent(t.score, |qs|);
    QuizResults.PassIff(t.score, |qs|);
    (p, p >= QuizResults.PassMark)
  }

  // ---------------------------------------------------------------------
  // Countdown

  /** One interval tick: the new remaining time and whether the timer expired on this tick. */
  datatype TimerStep = TimerStep(remaining: nat, expired: bool)

  /**
   * The `setTimeRemaining` updater: at zero (or null) the interval is
   * cleared, completion is triggered and 0 is kept; otherwise count down.
   * `Countdown` and `CountdownExpires` state what a run of ticks does.
   */
  function TimerTick(prev: Option<int>): (r: TimerStep)
    ensures r.expired <==> prev.None? || prev.value <= 0
    ensures r.expired ==> r.remaining == 0
    ensures !r.expired ==> r.remaining == prev.value - 1
  {
    if prev.None? || prev.value <= 0 then TimerStep(0, true) else TimerStep(prev.value - 1, false)
  }

  /** Remaining time after `k` ticks from `n`, as long as none expired. */
  function Countdown(n: nat, k: nat): (r: nat)
    requires k <= n
    ensures r == n - k
    decreases k
  {
    if k == 0 then n else TimerTick(Some(Countdown(n, k - 1))).remaining
  }

  /** A limit of `n` seconds runs `n` ticks without expiring and expires on the next. */
  lemma CountdownExpires(n: nat)
    ensures forall k :: 0 <= k < n ==> !TimerTick(Some(Countdown(n, k))).expired
    ensures TimerTick(Some(Countdown(n, n))).expired
  {
  }

  /** `formatTime(seconds)`: whole minutes, a colon, two-digit seconds. */
  function FormatTime(seconds: nat): (s: string)
    ensures |s| >= 4 && s[|s| - 3] == ':'
  {
    DecimalShape(seconds / 60);
    Pad2RoundTrip(seconds % 60);
    Decimal(seconds / 60) + ":" + Pad2(seconds % 60)
  }

  /** `s` reads as `m:ss` for the given number of seconds. */
  predicate ReadsAs(s: string, seconds: nat) {
    && |s| >= 4 && s[|s| - 3] == ':'
    && IsDecimal(s[..|s| - 3]) && IsDecimal(s[|s| - 2..])
    && DecimalValue(s[|s| - 2..]) < 60
    && DecimalValue(s[..|s| - 3]) * 60 + DecimalValue(s[|s| - 2..]) == seconds
  }

  /** Reading the display back: minutes times 60 plus the two-digit seconds give the time. */
  lemma FormatTimeRoundTrip(seconds: nat)
    ensures ReadsAs(FormatTime(seconds), seconds)
  {
    var s := FormatTime(seconds);
    FormatTimeParts(seconds);
    DecimalShape(seconds / 60);
    Pad2RoundTrip(seconds % 60);
    PartsReadBack(seconds);
  }

  lemma FormatTimeParts(seconds: nat)
    ensures var s := FormatTime(seconds);
      s[..|s| - 3] == Decimal(seconds / 60) && s[|s| - 2..] == Pad2(seconds % 60)
  {
    var m := Decimal(seconds / 60);
    var p := Pad2(seconds % 60);
    DecimalShape(seconds / 60);
    Pad2RoundTrip(seconds % 60);
    var s := m + ":" + p;
    assert s[..|s| - 3] == m;
    assert s[|s| - 2..] == p;
  }

  lemma PartsReadBack(seconds: nat)
    ensures forall i :: 0 <= i < |Decimal(seconds / 60)| ==> DigitValue(Decimal(seconds / 60)[i], 10).Some?
    ensures forall i :: 0 <= i < |Pad2(seconds % 60)| ==> DigitValue(Pad2(seconds % 60)[i], 10).Some?
    ensures DigitsValue(Decimal(seconds / 60), 10) * 60 + DigitsValue(Pad2(seconds % 60), 10) == seconds
  {
    DecimalRoundTrip(seconds / 60);
    Pad2RoundTrip(seconds % 60);
  }

  // ---------------------------------------------------------------------
  // Completion hand-off

  datatype Stores = Stores(locks: Table, assignments: Assignments)

  /**
   * `completeQuiz`: upsert the result; then, when the page was opened by a
   * device lock, mark that row completed and append an open unlock. Each
   * write's returned error is ignored, so each has its own flag.
   */
  function CompleteQuiz(st: Stores, userId: UserId, quizId: QuizId, score: nat, total: nat,
                        deviceLockId: Option<nat>, now: nat,
                        upsertOk: bool, ackOk: bool, insertOk: bool): (r: Stores)
    ensures upsertOk ==> r.assignments == RecordCompletion(st.assignments, userId, quizId, Completion(score, total, now))
    ensures !upsertOk ==> r.assignments == st.assignments
    ensures deviceLockId.None? ==> r.locks == st.locks
    ensures deviceLockId.Some? ==>
      var acked := if ackOk then Complete(st.locks, deviceLockId.value) else st.locks;
      r.locks == (if insertOk then acked + [Instruction(|st.locks|, userId, false, None, false, now)] else acked)
    ensures WellFormed(st.locks) ==> WellFormed(r.locks)
    ensures Valid(st.assignments) ==> Valid(r.assignments)
  {
    var assignments := if upsertOk then RecordCompletion(st.assignments, userId, quizId, Completion(score, total, now))
                       else st.assignments;
    var locks :=
      if deviceLockId.None? then st.locks
      else
        var acked := if ackOk then Complete(st.locks, deviceLockId.value) else st.locks;
        if insertOk then Insert(acked, userId, false, None, now) else acked;
    Stores(locks, assignments)
  }

  /**
   * The hand-off releases the device: the lock row is closed, and the
   * device's next tick consumes the new unlock and drops the lock, as long
   * as no row is dated after `now`.
   */
  lemma HandOffUnlocks(st: Stores, userId: UserId, quizId: QuizId, score: nat, total: nat,
                       lockId: nat, now: nat, d: Agent.Device, ackOk: bool)
    requires WellFormed(st.locks) && lockId < |st.locks|
    requires forall j :: 0 <= j < |st.locks| ==> st.locks[j].createdAt <= now
    requires Agent.BoundUser(d) == Some(userId)
    ensures
      var r := CompleteQuiz(st, userId, quizId, score, total, Some(lockId), now, true, true, true);
      var t := DeviceWrapper.PollTick(r.locks, d, true, ackOk);
      && r.locks[lockId].isCompleted
      && DeviceWrapper.Pending(r.locks, d) == Some(|st.locks|)
      && !t.device.isQuizMode && t.device.blocker.None?
  {
    var acked := Complete(st.locks, lockId);
    InsertedIsLatest(acked, userId, false, None, now, Query(userId, true, false));
  }
}

=== FILE: quiz_results.dfy ===
/**
 * Scoring shared by the quiz renderer's result card and the results list:
 * `Math.round(score / total * 100)` on the exact rational, the 70% pass
 * mark, and the list of a user's completed quizzes, most recent first.
 */
module QuizResults {
  import opened Wrappers
  import opened LockStore
  import opened UserQuizzes

  /** The pass mark, in percent. */
  const PassMark: nat := 70

  /** Integer division brackets its dividend. */
  lemma DivBounds(n: nat, d: nat)
    requires d > 0
    ensures d * (n / d) <= n < d * (n / d + 1)
  {
    assert n == d * (n / d) + n % d;
  }

  lemma MulMono(c: nat, a: int, b: int)
    requires a <= b
    ensures c * a <= c * b
  {
    assert c * b - c * a == c * (b - a);
  }

  /**
   * `Math.round(score / total * 100)`: the integer nearest to
   * 100 * score / total, halves rounding up.
   */
  function RoundedPercent(score: nat, total: nat): (p: nat)
    requires total > 0
    ensures 2 * total * p <= 200 * score + total < 2 * total * (p + 1)
    ensures score <= total ==> p <= 100
  {
    RoundingBounds(score, total);
    (200 * score + total) / (2 * total)
  }

  lemma RoundingBounds(score: nat, total: nat)
    requires total > 0
    ensures var p := (200 * score + total) / (2 * total);
      && 2 * total * p <= 200 * score + total < 2 * total * (p + 1)
      && (score <= total ==> p <= 100)
  {
    var p := (200 * score + total) / (2 * total);
    DivBounds(200 * score + total, 2 * total);
    if score <= total && p > 100 {
      MulMono(2 * total, 101, p);
    }
  }

  /** Passing at the rounded percentage is the same as 200 * score >= 139 * total. */
  lemma PassIff(score: nat, total: nat)
    requires total > 0
    ensures RoundedPercent(score, total) >= PassMark <==> 200 * score >= 139 * total
  {
    var p := RoundedPercent(score, total);
    if p >= PassMark {
      MulMono(2 * total, PassMark, p);
    } else {
      MulMono(2 * total, p + 1, PassMark);
    }
  }

  /** The percentage on a result card: 0 when the total is missing or zero; a missing score counts as 0. */
  function ResultPercent(a: Assignment): (p: nat)
    ensures a.totalQuestions.None? || a.totalQuestions.value == 0 ==> p == 0
    ensures a.totalQuestions.Some? && a.totalQuestions.value > 0 ==>
      p == RoundedPercent(a.score.GetOr(0), a.totalQuestions.value)
  {
    if a.totalQuestions.None? || a.totalQuestions.value == 0 then 0
    else RoundedPercent(a.score.GetOr(0), a.totalQuestions.value)
  }

  predicate Passing(percent: nat) {
    percent >= PassMark
  }

  /** A card passes exactly when its total is positive and the exact ratio is at least 69.5%. */
  lemma CardPassIff(a: Assignment)
    ensures Passing(ResultPercent(a)) <==>
      a.totalQuestions.Some? && a.totalQuestions.value > 0 && 200 * a.score.GetOr(0) >= 139 * a.totalQuestions.value
  {
    if a.totalQuestions.Some? && a.totalQuestions.value > 0 {
      PassIff(a.score.GetOr(0), a.totalQuestions.value);
    }
  }

  // ---------------------------------------------------------------------
  // The completed-results list

  /**
   * `order("completed_at", { ascending: false })`: a missing time sorts
   * first (descending order puts nulls first), then later before earlier.
   */
  predicate ShownBefore(a: Assignment, b: Assignment) {
    a.completedAt.None? || (b.completedAt.Some? && a.completedAt.value >= b.completedAt.value)
  }

  predicate Ordered(s: seq<Assignment>) {
    forall i, j :: 0 <= i < j < |s| ==> ShownBefore(s[i], s[j])
  }

  predicate Shown(a: Assignment, userId: UserId) {
    a.userId == userId && a.isCompleted
  }

  /** The rows the query selects, in table order. */
  function Completed(rows: Assignments, userId: UserId): (r: Assignments)
    ensures forall x :: multiset(r)[x] == (if Shown(x, userId) then multiset(rows)[x] else 0)
    decreases |rows|
  {
    if |rows| == 0 then []
    else
      var init := rows[..|rows| - 1];
      var last := rows[|rows| - 1];
      assert rows == init + [last];
      if Shown(last, userId) then Completed(init, userId) + [last] else Completed(init, userId)
  }

  /** Place one row into an ordered list, after every row that is shown before it. */
  function Place(x: Assignment, s: Assignments): (r: Assignments)
    requires Ordered(s)
    ensures multiset(r) == multiset(s) + multiset{x}
    ensures Ordered(r)
    decreases |s|
  {
    if |s| == 0 then [x]
    else if ShownBefore(x, s[0]) then
      assert forall j :: 0 <= j < |s| ==> ShownBefore(s[0], s[j]);
      [x] + s
    else
      var rest := Place(x, s[1..]);
      assert s == [s[0]] + s[1..];
      assert Ordered(s[1..]) by {
        forall i, j | 0 <= i < j < |s[1..]|
          ensures ShownBefore(s[1..][i], s[1..][j])
        {
          assert s[1..][i] == s[i + 1] && s[1..][j] == s[j + 1];
        }
      }
      PlacedAfterHead(s[0], x, s[1..], rest);
      [s[0]] + rest
  }

  /** The head stays first: it is shown before the placed row and before every row after it. */
  lemma PlacedAfterHead(h: Assignment, x: Assignment, tail: Assignments, rest: Assignments)
    requires !ShownBefore(x, h)
    requires forall j :: 0 <= j < |tail| ==> ShownBefore(h, tail[j])
    requires multiset(rest) == multiset(tail) + multiset{x}
    requires Ordered(rest)
    ensures Ordered([h] + rest)
  {
    var r := [h] + rest;
    forall y | y in rest
      ensures ShownBefore(h, y)
    {
      assert y in multiset(rest);
      if y != x {
        assert y in multiset(tail);
        assert y in tail;
      }
    }
    forall i, j | 0 <= i < j < |r|
      ensures ShownBefore(r[i], r[j])
    {
      if i == 0 {
        assert r[j] == rest[j - 1];
        assert r[j] in rest;
      } else {
        assert r[i] == rest[i - 1] && r[j] == rest[j - 1];
      }
    }
  }

  /** Insertion sort into the display order. */
  function SortShown(s: Assignments): (r: Assignments)
    ensures multiset(r) == multiset(s)
    ensures Ordered(r)
    decreases |s|
  {
    if |s| == 0 then []
    else
      assert s == s[..|s| - 1] + [s[|s| - 1]];
      Place(s[|s| - 1], SortShown(s[..|s| - 1]))
  }

  /** One card of the list. */
  datatype Card = Card(result: Assignment, percent: nat, passing: bool)

  function CardOf(a: Assignment): (c: Card)
    ensures c.result == a && c.percent == ResultPercent(a) && (c.passing <==> Passing(c.percent))
  {
    Card(a, ResultPercent(a), Passing(ResultPercent(a)))
  }

  /** The rows behind a list of cards. */
  function RowsOf(cards: seq<Card>): (r: Assignments)
    ensures |r| == |cards| && forall i :: 0 <= i < |cards| ==> r[i] == cards[i].result
  {
    seq(|cards|, i requires 0 <= i < |cards| => cards[i].result)
  }

  datatype ResultsView = NoCompletedQuizzes | Listing(cards: seq<Card>)

  /**
   * The results panel once loading ends. A failed query leaves the list
   * empty, as does a user with no completed quiz.
   */
  function Results(rows: Assignments, userId: UserId, queryOk: bool): (v: ResultsView)
    ensures v.NoCompletedQuizzes? <==> !queryOk || forall i :: 0 <= i < |rows| ==> !Shown(rows[i], userId)
    ensures v.Listing? ==>
      && multiset(RowsOf(v.cards)) == multiset(Completed(rows, userId))
      && Ordered(RowsOf(v.cards))
      && forall i :: 0 <= i < |v.cards| ==> v.cards[i] == CardOf(v.cards[i].result)
  {
    var shown := if queryOk then SortShown(Completed(rows, userId)) else [];
    if |shown| == 0 then
      NoneShown(rows, userId, queryOk);
      NoCompletedQuizzes
    else
      var cards := seq(|shown|, i requires 0 <= i < |shown| => CardOf(shown[i]));
      assert RowsOf(cards) == shown;
      SomeShown(rows, userId);
      Listing(cards)
  }

  lemma NoneShown(rows: Assignments, userId: UserId, queryOk: bool)
    requires queryOk ==> |SortShown(Completed(rows, userId))| == 0
    ensures forall i :: 0 <= i < |rows| ==> queryOk ==> !Shown(rows[i], userId)
  {
    if queryOk {
      forall i | 0 <= i < |rows|
        ensures !Shown(rows[i], userId)
      {
        assert multiset(SortShown(Completed(rows, userId))) == multiset{};
        assert rows[i] in multiset(rows);
      }
    }
  }

  lemma SomeShown(rows: Assignments, userId: UserId)
    requires |SortShown(Completed(rows, userId))| > 0
    ensures exists i :: 0 <= i < |rows| && Shown(rows[i], userId)
  {
    var s := SortShown(Completed(rows, userId));
    assert s[0] in multiset(s);
    assert multiset(Completed(rows, userId))[s[0]] > 0;
    assert Shown(s[0], userId) && s[0] in multiset(rows);
    var i :| 0 <= i < |rows| && rows[i] == s[0];
  }
}

=== FILE: text.dfy ===
/**
 * The pieces of JavaScript string handling the web app relies on:
 * `String.prototype.trim` (blank checks), decimal rendering of a
 * non-negative integer, `padStart(2, "0")` and `Number.parseInt`.
 */
module Text {
  import opened Wrappers

  /** The characters `trim` removes: ECMAScript WhiteSpace and LineTerminator. */
  predicate IsWhitespace(c: char) {
    || c == '\t' || c == '\n' || c == '\U{000B}' || c == '\U{000C}' || c == '\r'
    || c == ' ' || c == '\U{00A0}' || c == '\U{1680}'
    || ('\U{2000}' <= c <= '\U{200A}')
    || c == '\U{2028}' || c == '\U{2029}' || c == '\U{202F}' || c == '\U{205F}'
    || c == '\U{3000}' || c == '\U{FEFF}'
  }

  /** `s` without its leading whitespace. */
  function TrimStart(s: string): string {
    if |s| > 0 && IsWhitespace(s[0]) then TrimStart(s[1..]) else s
  }

  /** `s` without its trailing whitespace. */
  function TrimEnd(s: string): string {
    if |s| > 0 && IsWhitespace(s[|s| - 1]) then TrimEnd(s[..|s| - 1]) else s
  }

  /** `s.trim()`. */
  function Trim(s: string): string {
    TrimEnd(TrimStart(s))
  }

  /** `!s.trim()`: the string is empty once trimmed. */
  predicate IsBlank(s: string) {
    Trim(s) == ""
  }

  lemma {:induction false} TrimStartEmpty(s: string)
    ensures TrimStart(s) == "" <==> forall i :: 0 <= i < |s| ==> IsWhitespace(s[i])
    decreases |s|
  {
    if |s| > 0 && IsWhitespace(s[0]) {
      TrimStartEmpty(s[1..]);
      assert forall i :: 1 <= i < |s| ==> s[i] == s[1..][i - 1];
    }
  }

  lemma {:induction false} TrimEndOfNonWhitespaceStart(s: string)
    requires |s| > 0 && !IsWhitespace(s[0])
    ensures TrimEnd(s) != ""
    decreases |s|
  {
    if IsWhitespace(s[|s| - 1]) {
      TrimEndOfNonWhitespaceStart(s[..|s| - 1]);
    }
  }

  /** A string is blank exactly when every one of its characters is whitespace. */
  lemma BlankIffAllWhitespace(s: string)
    ensures IsBlank(s) <==> forall i :: 0 <= i < |s| ==> IsWhitespace(s[i])
  {
    TrimStartEmpty(s);
    var t := TrimStart(s);
    if t != "" {
      assert !IsWhitespace(t[0]) by { TrimStartStops(s); }
      TrimEndOfNonWhitespaceStart(t);
    }
  }

  lemma {:induction false} TrimStartStops(s: string)
    requires TrimStart(s) != ""
    ensures !IsWhitespace(TrimStart(s)[0])
    decreases |s|
  {
    if |s| > 0 && IsWhitespace(s[0]) {
      TrimStartStops(s[1..]);
    }
  }

  // ---------------------------------------------------------------------
  // Digits

  predicate IsDigit(c: char) {
    '0' <= c <= '9'
  }

  predicate IsDecimal(s: string) {
    forall i :: 0 <= i < |s| ==> IsDigit(s[i])
  }

  /** The value of a digit character in the given radix (10 or 16), if it is one. */
  function DigitValue(c: char, radix: nat): Option<nat> {
    if '0' <= c <= '9' && (c as int) - ('0' as int) < radix then Some((c as int) - ('0' as int))
    else if radix == 16 && 'a' <= c <= 'f' then Some((c as int) - ('a' as int) + 10)
    else if radix == 16 && 'A' <= c <= 'F' then Some((c as int) - ('A' as int) + 10)
    else None
  }

  /** The longest prefix of `s` made of radix digits. */
  function DigitPrefix(s: string, radix: nat): (p: string)
    ensures |p| <= |s| && p == s[..|p|]
    ensures forall i :: 0 <= i < |p| ==> DigitValue(p[i], radix).Some?
    ensures |p| < |s| ==> DigitValue(s[|p|], radix).None?
  {
    if |s| > 0 && DigitValue(s[0], radix).Some? then [s[0]] + DigitPrefix(s[1..], radix) else ""
  }

  /** The value of a string of radix digits, most significant first. */
  function DigitsValue(s: string, radix: nat): nat
    requires forall i :: 0 <= i < |s| ==> DigitValue(s[i], radix).Some?
  {
    if |s| == 0 then 0
    else DigitsValue(s[..|s| - 1], radix) * radix + DigitValue(s[|s| - 1], radix).value
  }

  function DigitChar(d: nat): (c: char)
    requires d < 10
    ensures IsDigit(c) && DigitValue(c, 10) == Some(d)
  {
    (('0' as int) + d) as char
  }

  /** `n.toString()` for a non-negative integer. */
  function Decimal(n: nat): string
    decreases n
  {
    if n < 10 then [DigitChar(n)] else Decimal(n / 10) + [DigitChar(n % 10)]
  }

  lemma {:induction false} DecimalShape(n: nat)
    ensures 0 < |Decimal(n)| && IsDecimal(Decimal(n))
    ensures Decimal(n)[0] == '0' ==> n == 0
    decreases n
  {
    if n >= 10 {
      DecimalShape(n / 10);
    }
  }

  /** Reading back the rendered digits gives the number again. */
  lemma {:induction false} DecimalRoundTrip(n: nat)
    ensures forall i :: 0 <= i < |Decimal(n)| ==> DigitValue(Decimal(n)[i], 10).Some?
    ensures DigitsValue(Decimal(n), 10) == n
    decreases n
  {
    DecimalShape(n);
    if n >= 10 {
      DecimalRoundTrip(n / 10);
      var s := Decimal(n);
      assert s[..|s| - 1] == Decimal(n / 10);
    }
  }

  lemma DecimalDigits(s: string)
    requires IsDecimal(s)
    ensures forall i :: 0 <= i < |s| ==> DigitValue(s[i], 10).Some?
  {
  }

  /** The value of a string of decimal digits. */
  function DecimalValue(s: string): nat
    requires IsDecimal(s)
  {
    DecimalDigits(s);
    DigitsValue(s, 10)
  }

  /** `n.toString().padStart(2, "0")`. */
  function Pad2(n: nat): string {
    var d := Decimal(n);
    if |d| < 2 then ['0'] + d else d
  }

  /** Two-digit rendering of a value below 100, read back. */
  lemma Pad2RoundTrip(n: nat)
    requires n < 100
    ensures |Pad2(n)| == 2 && IsDecimal(Pad2(n))
    ensures forall i :: 0 <= i < 2 ==> DigitValue(Pad2(n)[i], 10).Some?
    ensures DigitsValue(Pad2(n), 10) == n
  {
    DecimalRoundTrip(n);
    DecimalShape(n);
    if n >= 10 {
      assert Decimal(n) == Decimal(n / 10) + [DigitChar(n % 10)];
    } else {
      var p := Pad2(n);
      assert p[..1] == "0";
    }
  }

  // ---------------------------------------------------------------------
  // Number.parseInt with no radix argument

  /**
   * `Number.parseInt(s)`: leading whitespace is skipped, an optional sign is
   * read, a `0x`/`0X` prefix switches to radix 16, and the longest run of
   * digits is read. No digit at all gives NaN, modelled as `None`.
   */
  function ParseInt(s: string): Option<int> {
    var t := TrimStart(s);
    var negative := |t| > 0 && t[0] == '-';
    var u := if |t| > 0 && (t[0] == '-' || t[0] == '+') then t[1..] else t;
    var hex := |u| >= 2 && u[0] == '0' && (u[1] == 'x' || u[1] == 'X');
    var radix := if hex then 16 else 10;
    var digits := DigitPrefix(if hex then u[2..] else u, radix);
    if |digits| == 0 then None
    else
      var magnitude: int := DigitsValue(digits, radix);
      Some(if negative then -magnitude else magnitude)
  }

  lemma {:induction false} DigitPrefixOfDigits(s: string, radix: nat)
    requires forall i :: 0 <= i < |s| ==> DigitValue(s[i], radix).Some?
    ensures DigitPrefix(s, radix) == s
    decreases |s|
  {
    if |s| > 0 {
      assert forall i :: 0 <= i < |s[1..]| ==> s[1..][i] == s[i + 1];
      DigitPrefixOfDigits(s[1..], radix);
      assert s == [s[0]] + s[1..];
    }
  }

  /** Parsing the decimal rendering of a natural number gives that number. */
  lemma ParseIntOfDecimal(n: nat)
    ensures ParseInt(Decimal(n)) == Some(n)
  {
    var s := Decimal(n);
    DecimalShape(n);
    DecimalRoundTrip(n);
    assert !IsWhitespace(s[0]);
    assert TrimStart(s) == s;
    DigitPrefixOfDigits(s, 10);
  }
}

=== FILE: user_quizzes.dfy ===
/**
 * The `user_quizzes` table: which quizzes are assigned to which users, and
 * the recorded result once a quiz is completed.
 *
 * The completion hand-off upserts on `(user_id, quiz_id)`, so the store
 * holds a unique constraint on that pair; an insert that would break it is
 * rejected and leaves the table unchanged. Ids are row positions.
 */
module UserQuizzes {
  import opened Wrappers
  import opened LockStore

  datatype Assignment = Assignment(
    id: nat,
    userId: UserId,
    quizId: QuizId,
    isCompleted: bool,
    assignedAt: nat,
    score: Option<nat>,
    totalQuestions: Option<nat>,
    completedAt: Option<nat>)

  type Assignments = seq<Assignment>

  predicate IsPair(a: Assignment, userId: UserId, quizId: QuizId) {
    a.userId == userId && a.quizId == quizId
  }

  /** Ids are positions and no pair occurs twice. */
  predicate Valid(rows: Assignments) {
    && (forall i :: 0 <= i < |rows| ==> rows[i].id == i)
    && (forall i, j :: 0 <= i < j < |rows| ==> !IsPair(rows[j], rows[i].userId, rows[i].quizId))
  }

  /** The number of rows for a pair. */
  function PairCount(rows: Assignments, userId: UserId, quizId: QuizId): (n: nat)
    ensures n <= |rows|
    ensures n == 0 <==> forall i :: 0 <= i < |rows| ==> !IsPair(rows[i], userId, quizId)
    decreases |rows|
  {
    if |rows| == 0 then 0
    else PairCount(rows[..|rows| - 1], userId, quizId) + (if IsPair(rows[|rows| - 1], userId, quizId) then 1 else 0)
  }

  /** The last row for a pair, if any. */
  function FindPair(rows: Assignments, userId: UserId, quizId: QuizId): (k: Option<nat>)
    ensures k.Some? ==> k.value < |rows| && IsPair(rows[k.value], userId, quizId)
    ensures k.None? <==> forall i :: 0 <= i < |rows| ==> !IsPair(rows[i], userId, quizId)
    decreases |rows|
  {
    if |rows| == 0 then None
    else if IsPair(rows[|rows| - 1], userId, quizId) then Some(|rows| - 1)
    else FindPair(rows[..|rows| - 1], userId, quizId)
  }

  /** In a valid table a pair has at most one row, and `FindPair` finds it. */
  lemma {:induction false} ValidPairCount(rows: Assignments, userId: UserId, quizId: QuizId)
    requires Valid(rows)
    ensures PairCount(rows, userId, quizId) <= 1
    ensures PairCount(rows, userId, quizId) == 1 <==> FindPair(rows, userId, quizId).Some?
    decreases |rows|
  {
    if |rows| > 0 {
      var init := rows[..|rows| - 1];
      assert Valid(init);
      ValidPairCount(init, userId, quizId);
      if IsPair(rows[|rows| - 1], userId, quizId) {
        assert forall i :: 0 <= i < |init| ==> !IsPair(init[i], userId, quizId) by {
          forall i | 0 <= i < |init|
            ensures !IsPair(init[i], userId, quizId)
          {
            assert init[i] == rows[i];
          }
        }
      }
    }
  }

  /**
   * `.select().eq(user).eq(quiz).single()`: the row when exactly one matches;
   * no row and several rows are both reported as an error, read as null.
   */
  function Single(rows: Assignments, userId: UserId, quizId: QuizId): (k: Option<nat>)
    ensures k.Some? ==> k.value < |rows| && IsPair(rows[k.value], userId, quizId)
    ensures k.Some? <==> PairCount(rows, userId, quizId) == 1
    ensures Valid(rows) ==> k == FindPair(rows, userId, quizId)
  {
    ValidPairCountIf(rows, userId, quizId);
    if PairCount(rows, userId, quizId) == 1 then FindPair(rows, userId, quizId) else None
  }

  lemma ValidPairCountIf(rows: Assignments, userId: UserId, quizId: QuizId)
    ensures Valid(rows) ==> PairCount(rows, userId, quizId) <= 1
    ensures Valid(rows) ==> (PairCount(rows, userId, quizId) == 1 <==> FindPair(rows, userId, quizId).Some?)
  {
    if Valid(rows) {
      ValidPairCount(rows, userId, quizId);
    }
  }

  /** `insert({ user_id, quiz_id, is_completed: false })`, rejected on a duplicate pair. */
  function Assign(rows: Assignments, userId: UserId, quizId: QuizId, now: nat): (r: Assignments)
    ensures FindPair(rows, userId, quizId).Some? ==> r == rows
    ensures FindPair(rows, userId, quizId).None? ==>
      r == rows + [Assignment(|rows|, userId, quizId, false, now, None, None, None)]
    ensures Valid(rows) ==> Valid(r)
    ensures FindPair(r, userId, quizId).Some?
  {
    if FindPair(rows, userId, quizId).Some? then rows
    else
      var row := Assignment(|rows|, userId, quizId, false, now, None, None, None);
      AppendKeepsPair(rows, row);
      rows + [row]
  }

  /** `update({ is_completed: false, assigned_at: now }).eq("id", id)`: the old result stays. */
  function Reopen(rows: Assignments, id: nat, now: nat): (r: Assignments)
    ensures |r| == |rows|
    ensures forall i :: 0 <= i < |rows| && rows[i].id != id ==> r[i] == rows[i]
    ensures forall i :: 0 <= i < |rows| && rows[i].id == id ==>
      r[i] == rows[i].(isCompleted := false, assignedAt := now)
    ensures Valid(rows) ==> Valid(r)
  {
    seq(|rows|, i requires 0 <= i < |rows| =>
      if rows[i].id == id then rows[i].(isCompleted := false, assignedAt := now) else rows[i])
  }

  /** The result the completion hand-off records. */
  datatype Completion = Completion(score: nat, totalQuestions: nat, completedAt: nat)

  /**
   * `upsert({ user_id, quiz_id, is_completed: true, score, total_questions,
   * completed_at }, { onConflict: "user_id,quiz_id" })`: an existing row takes
   * the result and keeps its id and assignment time; otherwise a row is added.
   */
  function RecordCompletion(rows: Assignments, userId: UserId, quizId: QuizId, c: Completion): (r: Assignments)
    ensures FindPair(rows, userId, quizId).Some? ==> |r| == |rows|
    ensures FindPair(rows, userId, quizId).None? ==> |r| == |rows| + 1 && r[..|rows|] == rows
    ensures Valid(rows) ==> Valid(r)
    ensures Valid(rows) ==>
      && Single(r, userId, quizId).Some?
      && var a := r[Single(r, userId, quizId).value];
      && a.isCompleted
      && a.score == Some(c.score) && a.totalQuestions == Some(c.totalQuestions)
      && a.completedAt == Some(c.completedAt)
    ensures forall i :: 0 <= i < |rows| && !IsPair(rows[i], userId, quizId) ==> r[i] == rows[i]
  {
    match FindPair(rows, userId, quizId)
    case Some(k) =>
      var done := rows[k].(isCompleted := true, score := Some(c.score),
                           totalQuestions := Some(c.totalQuestions), completedAt := Some(c.completedAt));
      UpdateKeepsPair(rows, k, done);
      ValidPairCountIf(rows[k := done], userId, quizId);
      rows[k := done]
    case None =>
      var row := Assignment(|rows|, userId, quizId, true, c.completedAt, Some(c.score),
                            Some(c.totalQuestions), Some(c.completedAt));
      AppendKeepsPair(rows, row);
      ValidPairCountIf(rows + [row], userId, quizId);
      rows + [row]
  }

  /** Rewriting a row in place, keeping its id and pair, keeps the table valid and the row findable. */
  lemma UpdateKeepsPair(rows: Assignments, k: nat, row: Assignment)
    requires k < |rows| && row.id == rows[k].id && IsPair(row, rows[k].userId, rows[k].quizId)
    ensures Valid(rows) ==> Valid(rows[k := row]) && FindPair(rows[k := row], row.userId, row.quizId) == Some(k)
  {
    var r := rows[k := row];
    if Valid(rows) {
      assert Valid(r) by {
        forall i, j | 0 <= i < j < |r|
          ensures !IsPair(r[j], r[i].userId, r[i].quizId)
        {
          assert !IsPair(rows[j], rows[i].userId, rows[i].quizId);
        }
      }
      assert r[k] == row;
      forall i | 0 <= i < |r| && i != k
        ensures !IsPair(r[i], row.userId, row.quizId)
      {
        if i < k {
          assert !IsPair(rows[k], rows[i].userId, rows[i].quizId);
        } else {
          assert !IsPair(rows[i], rows[k].userId, rows[k].quizId);
        }
      }
    }
  }

  /** Appending a row for a pair the table lacks keeps it valid and makes the new row the pair's. */
  lemma AppendKeepsPair(rows: Assignments, row: Assignment)
    requires row.id == |rows| && FindPair(rows, row.userId, row.quizId).None?
    ensures Valid(rows) ==> Valid(rows + [row])
    ensures FindPair(rows + [row], row.userId, row.quizId) == Some(|rows|)
  {
    var r := rows + [row];
    assert r[|rows|] == row;
    if Valid(rows) {
      assert Valid(r) by {
        forall i, j | 0 <= i < j < |r|
          ensures !IsPair(r[j], r[i].userId, r[i].quizId)
        {
          if j < |rows| {
            assert !IsPair(rows[j], rows[i].userId, rows[i].quizId);
          } else {
            assert !IsPair(rows[i], row.userId, row.quizId);
          }
        }
      }
    }
  }
}

=== FILE: wrappers.dfy ===
/** Failure-compatible wrappers shared by every module of the model. */
module Wrappers {

  /** A value that may be absent: the source's `null` / `undefined`. */
  datatype Option<+T> = None | Some(value: T) {

    /** The value, or `default` when absent. */
    function GetOr(default: T): T {
      match this
      case Some(v) => v
      case None => default
    }
  }

  /** The outcome of a store call: either its data or the error the store reported. */
  datatype Result<+R, +E> = Success(value: R) | Failure(error: E) {

    predicate IsFailure() {
      Failure?
    }

    function PropagateFailure<U>(): Result<U, E>
      requires Failure?
    {
      Failure(error)
    }

    function Extract(): R
      requires Success?
    {
      value
    }
  }
}
